=== FILE: README.md ===
# Tamagotchi battle, escrow and tamagotchi army — a Dafny model

This project models the core of a set of Gear smart-contract programs:

- **The battle** (`contracts/07-tamagotchi-battle`). Two tamagotchis register, and their
  owners take turns attacking or defending on a left or right side. After a
  round of moves the battle waits for a delayed self-message that refreshes the
  players' attributes. A knock-out ends the game, and a reset reopens
  registration.
- **The escrow** (`contracts/escrow`). A buyer deposits exactly the price and
  confirms delivery, and the price is then paid to the seller.
- **The escrow factory** (`contracts/escrow-factory`). It creates escrow
  programs, numbers them with a saturating counter and forwards deposits and
  confirmations to them.
- **Three tamagotchi variants**:
  - the NFT pet (`contracts/03-tamagotchi-nft`);
  - the auto pet (`contracts/05-tamagotchi-auto`);
  - the army pet (`contracts/06-tamagotchi-army/tamagotchi-utils`).

  They share the stat arithmetic: three stats that decay with the block
  height and are refilled by care actions. The army pet adds a
  self-sustaining check loop paid from a stack of gas reservations.
- **The army factory** (`contracts/06-tamagotchi-army`). It creates tamagotchi
  programs and relays actions to them, checking each reply against the
  action.

Each message handler is modelled as a pure function from the stored state, the
message and everything the host supplies to `Ok(step) | Panic(reason)`. A panic
reverts the whole message. The host supplies:

- the sender;
- the program's own address;
- the block height and timestamp;
- the random hashes;
- the replies of the programs it talks to;
- the addresses of created programs;
- the granted gas reservations.

The messages a handler sends besides its reply are returned as a list of
effects. The programs are modelled as a release build, where integer overflow
wraps: every `u16`, `u32` and `u64` operation that can overflow is written out
as a wrapping or saturating operation (module `Prim`).

Files:

| file | what it holds |
|---|---|
| `prim.dfy` | integer widths, addresses, `Result` and `Option` |
| `battle_io.dfy`, `battle_program.dfy` | the battle session and its entry points |
| `battle_proofs.dfy` | the invariant and the multi-move properties of the battle |
| `escrow.dfy` | the escrow and its entry points |
| `escrow_factory.dfy` | the escrow factory |
| `tamagotchi_io.dfy` | the tamagotchi action and event types |
| `pet_stats.dfy` | stat decay and refill |
| `pet_common.dfy` | the arms shared by the auto and army pets |
| `tamagotchi_auto.dfy` | the auto pet |
| `tamagotchi_utils.dfy` | the army pet |
| `tamagotchi_nft.dfy` | the NFT pet |
| `army_io.dfy`, `army_program.dfy` | the army factory |

Some behaviour of the code may surprise a reader; the model follows the code:

- `MAX_STEPS_FOR_ROUND` is 3 (`contracts/07-tamagotchi-battle/io/src/lib.rs:7-33`), but `make_move` checks `steps <= MAX_STEPS_FOR_ROUND` before incrementing the counter (lines 189-207). A round therefore has five moves, and the fifth enters `Waiting`.
- `make_move` works on clones of both players and writes back only `players[next_turn]` (line 179). So the mover's new side and any defence bonus are lost.
- The battle's `state` entry point calls `take()` on the stored battle (`contracts/07-tamagotchi-battle/src/lib.rs:39`). The query empties the storage, and the next message runs on a default battle.
- The `state` entry points of the 03, 05 and 06 pets call `update_stats` on the stored pet through a mutable reference. They write the refreshed stats back, so a query is not read-only.
- The escrow checks the address carried in the payload against the buyer and never reads the sender (`contracts/escrow/io/src/lib.rs:58-61, 76-79`). Anyone naming the buyer can deposit or confirm.

## Model

| member | source | states |
|---|---|---|
| BattleIo.RawRoll | contracts/07-tamagotchi-battle/io/src/lib.rs:295-304 | a roll is the big-endian first two random bytes reduced below the modulus |
| BattleIo.GeneratePower | contracts/07-tamagotchi-battle/io/src/lib.rs:295-304 | power lies in [MIN_POWER, MAX_POWER); a roll below the minimum becomes MAX_POWER / 2 and any other roll is kept |
| BattleIo.GenerateEnergy | contracts/07-tamagotchi-battle/io/src/lib.rs:306-315 | energy lies in [MIN_ENERGY, MAX_ENERGY); a roll below the minimum becomes MAX_ENERGY / 2 and any other roll is kept |
| BattleIo.GetTurn | contracts/07-tamagotchi-battle/io/src/lib.rs:336-340 | the turn is 0 or 1, and it is 0 exactly when the first random byte is even |
| BattleIo.SideOf | contracts/07-tamagotchi-battle/io/src/lib.rs:90-98 | a player starts on the left exactly when its position roll is 0, and otherwise on the right |
| BattleIo.StoredPower | contracts/07-tamagotchi-battle/io/src/lib.rs:90-98 | the stored power and the rolled power add up to MAX_POWER, so the stored power lies in [1, 7000] |
| BattleIo.HashOf | contracts/07-tamagotchi-battle/io/src/lib.rs:295-315 | every 16-bit roll is produced by some random hash |
| BattleIo.SwordPower | contracts/07-tamagotchi-battle/io/src/lib.rs:136-146 | the iron sword takes precedence; the multiplier is 1 exactly when the player owns no sword |
| BattleIo.ShieldProtection | contracts/07-tamagotchi-battle/io/src/lib.rs:159-169 | the iron shield takes precedence; the bonus is 1 exactly when the player owns no shield |
| BattleIo.Resolve | contracts/07-tamagotchi-battle/io/src/lib.rs:136-177 | only the opponent's energy can change, and only downward. A landed attack drains it by sword times power with a floor at 0, and a miss or a defence leaves it alone. A defence on the opponent's side adds the shield bonus to the mover. The mover is told `SuccessfullyAttacked` for a landed attack, `AttackMissed` for a miss and `SuccessfullyDefended` for every defence, and nothing for an unknown action |
| BattleIo.NextTurn | contracts/07-tamagotchi-battle/io/src/lib.rs:189-207 | the next turn is always the other of the two players |
| BattleIo.NewPlayer | contracts/07-tamagotchi-battle/io/src/lib.rs:90-108 | a new player keeps its owner, id and attributes, has power in [1, 7000] and energy in range, starts on the left exactly when the side roll is even, and has no combat position |
| BattleIo.RegisterTamagotchi | contracts/07-tamagotchi-battle/io/src/lib.rs:81-117 | registration succeeds exactly in `Registration` with decodable owner and store replies. It appends exactly the new player, and the second player starts the game with a random turn. Nothing else changes |
| BattleIo.MakeMove | contracts/07-tamagotchi-battle/io/src/lib.rs:119-208 | a move succeeds exactly in `Moves` when the turn's owner sends it. Only the opponent's record is written back. A knock-out ends the game with the mover as winner. Otherwise the step counter advances, and once it has passed 3 the battle enters `Waiting` and schedules a delayed `UpdateInfo` |
| BattleIo.UpdatePlayersInfo | contracts/07-tamagotchi-battle/io/src/lib.rs:210-231 | only the program itself, and only in `Waiting`, can refresh the players: both players' attributes are replaced, the moves resume and a new turn is drawn |
| BattleIo.Reset | contracts/07-tamagotchi-battle/io/src/lib.rs:232-242 | a reset succeeds exactly in `GameIsOver`, reopens registration and keeps every other field |
| BattleProgram.Init | contracts/07-tamagotchi-battle/src/lib.rs:8-23 | `init` builds an empty battle in `Registration`, bound to the configured store |
| BattleProgram.DefaultBattle | contracts/07-tamagotchi-battle/src/lib.rs:28 | the default battle is the initial battle bound to the zero address |
| BattleProgram.Current | contracts/07-tamagotchi-battle/src/lib.rs:28 | `main` works on the stored battle, or on the default battle when nothing is stored |
| BattleProgram.Handle | contracts/07-tamagotchi-battle/src/lib.rs:26-35 | each action runs exactly its battle operation with the host's inputs |
| BattleProgram.StoredAfter | contracts/07-tamagotchi-battle/src/lib.rs:26-35 | a successful message stores its battle, and a panic leaves the storage as it was |
| BattleProgram.StateQuery | contracts/07-tamagotchi-battle/src/lib.rs:38-41 | the state query succeeds exactly when a battle is stored, replies with it and leaves the storage empty |
| BattleProofs.InitValid | contracts/07-tamagotchi-battle/src/lib.rs:8-23 | the initial battle and the default battle satisfy the player-count invariant |
| BattleProofs.RegisterPreservesValid | contracts/07-tamagotchi-battle/io/src/lib.rs:81-117 | registration keeps the invariant |
| BattleProofs.MakeMovePreservesValid | contracts/07-tamagotchi-battle/io/src/lib.rs:119-208 | a move keeps the invariant |
| BattleProofs.UpdatePlayersInfoPreservesValid | contracts/07-tamagotchi-battle/io/src/lib.rs:210-231 | an update keeps the invariant |
| BattleProofs.ResetPreservesValid | contracts/07-tamagotchi-battle/io/src/lib.rs:232-242 | a reset keeps the invariant and leaves no players |
| BattleProofs.HandlePreservesValid | contracts/07-tamagotchi-battle/src/lib.rs:26-35 | every accepted message keeps the invariant, whether it starts from the stored battle or from the default one |
| BattleProofs.PlayerCount | contracts/07-tamagotchi-battle/io/src/lib.rs:109-114 | the invariant fixes the player count: at most 2 while registering, exactly 2 in `Moves` and `Waiting`, and 0 once the game is over |
| BattleProofs.TwoRegistrationsStartTheGame | contracts/07-tamagotchi-battle/io/src/lib.rs:109-114 | from a fresh battle, two registrations start the game in registration order, and a third registration is refused |
| BattleProofs.NoThirdPlayer | contracts/07-tamagotchi-battle/io/src/lib.rs:82-86 | a valid battle with two players refuses every registration |
| BattleProofs.AttackDamageIsExact | contracts/07-tamagotchi-battle/io/src/lib.rs:147-152 | in a valid battle the 16-bit product of sword and power never wraps, so a landed attack drains exactly that product |
| BattleProofs.MoverRecordUnchanged | contracts/07-tamagotchi-battle/io/src/lib.rs:179 | after a move that does not end the game, the mover's stored record is unchanged and both players keep their registration sides |
| BattleProofs.OnlyAttackEndsTheGame | contracts/07-tamagotchi-battle/io/src/lib.rs:181-188 | a defence, a miss or an unknown action never ends the game and changes no player |
| BattleProofs.KnockoutWins | contracts/07-tamagotchi-battle/io/src/lib.rs:181-188 | an attack that drains the opponent to 0 ends the game, makes the mover the winner and clears the players |
| BattleProofs.RunMoves | contracts/07-tamagotchi-battle/io/src/lib.rs:119-208 | a successful run of moves produces one reply per move. A finished game refuses every further move, so in a successful run only the last reply can be `GameIsOver`, and the run then ends in that state |
| BattleProofs.RoundLength | contracts/07-tamagotchi-battle/io/src/lib.rs:189-207 | starting at step s, the move with index i is answered `MoveMade` exactly when s + i <= 3 and `GoToWaitingState` exactly when s + i == 4, so a round has at most 5 - s moves |
| BattleProofs.FifthMoveWaits | contracts/07-tamagotchi-battle/io/src/lib.rs:189-207 | from step 0, four moves are made and the fifth enters `Waiting` |
| BattleProofs.ResetThenRegisterKeepsSteps | contracts/07-tamagotchi-battle/io/src/lib.rs:232-242 | a reset keeps the old step counter and winner, so a new game inherits them |
| BattleProofs.QueryForgetsTheBattle | contracts/07-tamagotchi-battle/src/lib.rs:38-41 | after a state query the next message runs on a default battle bound to the zero store |
| BattleProofs.GeneratePowerOnto | contracts/07-tamagotchi-battle/io/src/lib.rs:295-304 | every power in [MIN_POWER, MAX_POWER) can be rolled |
| BattleProofs.GenerateEnergyOnto | contracts/07-tamagotchi-battle/io/src/lib.rs:306-315 | every energy in [MIN_ENERGY, MAX_ENERGY) can be rolled |
| EscrowIo.Progress | contracts/escrow/io/src/lib.rs:12-17 | the three states are ordered, and each has a rank of at most 2 |
| EscrowIo.DepositFunds | contracts/escrow/io/src/lib.rs:52-73 | a deposit succeeds exactly in `AwaitingPayment`, when the payload names the buyer (whoever sends it) and exactly the price is attached; it moves to `AwaitingDelivery` and pays nothing |
| EscrowIo.ConfirmDeliveryOf | contracts/escrow/io/src/lib.rs:75-88 | a confirmation succeeds exactly when the payload names the buyer (whoever sends it) and the deal is in `AwaitingDelivery`; it closes the deal and pays exactly the price to the seller |
| EscrowContract.Init | contracts/escrow/src/contract.rs:16-27 | `init` creates the configured deal awaiting payment |
| EscrowContract.Handle | contracts/escrow/src/contract.rs:30-37 | each action runs its operation with the address it carries. A success raises the deal's progress by exactly one and changes nothing but the state |
| EscrowContract.StateQuery | contracts/escrow/src/contract.rs:40-43 | the state query replies with the escrow and changes nothing |
| EscrowContract.Run | contracts/escrow/src/contract.rs:30-37 | over any sequence of messages the parties and the price never change and the deal never moves backward |
| EscrowContract.ClosedIsTerminal | contracts/escrow/io/src/lib.rs:52-88 | a closed escrow refuses every message |
| EscrowContract.DealCompletes | contracts/escrow/tests/escrow.rs:39-54 | deposit then confirm closes the deal with exactly one payment of the price to the seller, and a repeated deposit or confirmation is refused |
| EscrowContract.DepositRefusals | contracts/escrow/tests/escrow.rs:39-47 | a wrong amount, a deposit naming anyone other than the buyer, and a confirmation before payment are all refused |
| EscrowContract.Payments | contracts/escrow/io/src/lib.rs:75-88 | over any sequence of messages at most one payment is made (none from a closed escrow), and it is the price, paid to the seller |
| Prim.NextId | contracts/escrow-factory/io/src/lib.rs:46 | a registry counter goes up by one and stays put at the largest u64; the army factory increments its counter the same way (`contracts/06-tamagotchi-army/io/src/lib.rs:36-45`) |
| EscrowFactoryIo.CreateEscrow | contracts/escrow-factory/io/src/lib.rs:31-56 | creation succeeds exactly when the program is created. It registers the address under the next id, reports that id and sends the deal to the new program |
| EscrowFactoryIo.GetEscrowAddress | contracts/escrow-factory/io/src/lib.rs:76-81 | the lookup succeeds exactly for a registered id and returns its address |
| EscrowFactoryIo.ForwardToEscrow | contracts/escrow-factory/io/src/lib.rs:83-93 | forwarding succeeds exactly for a registered id with a decodable reply. It sends the action with the caller's value to that escrow and never changes the registry |
| EscrowFactoryIo.Deposit | contracts/escrow-factory/io/src/lib.rs:58-63 | a deposit forwards `Deposit(caller)` to the escrow with the caller's value and echoes the id |
| EscrowFactoryIo.ConfirmDelivery | contracts/escrow-factory/io/src/lib.rs:65-74 | a confirmation forwards `ConfirmDelivery(caller)` to the escrow and echoes the id |
| EscrowFactoryIo.Empty | contracts/escrow-factory/io/src/lib.rs:24-28 | the default factory has no escrows and a counter of 0 |
| EscrowFactoryIo.CreateIssuesFreshId | contracts/escrow-factory/io/src/lib.rs:46-47 | creation keeps every id within the counter. Until the counter saturates, the new id is unused and exactly one key is added |
| EscrowFactoryIo.CreateAll | contracts/escrow-factory/io/src/lib.rs:31-56 | creating n escrows in a row advances the counter by n, saturating at the largest u64, and registers the last address |
| EscrowFactoryIo.IdsInCreationOrder | contracts/escrow-factory/io/src/lib.rs:46-47 | below saturation, the k-th of n consecutive creations gets id c + k, every old entry survives, and ids stay within the counter |
| EscrowFactoryIo.SaturatedCounterOverwrites | contracts/escrow-factory/io/src/lib.rs:46-47 | with the counter saturated, a further creation reuses the last id and replaces its escrow |
| EscrowFactoryIo.ForwardedDepositIsDirectDeposit | contracts/escrow-factory/io/src/lib.rs:58-63 | a deposit through the factory is accepted by the escrow exactly when a direct deposit by the caller with the same value would be |
| EscrowFactoryIo.ForwardedConfirmIsDirectConfirm | contracts/escrow-factory/io/src/lib.rs:65-74 | a confirmation through the factory is the escrow's own confirmation naming the caller: it releases the price exactly when the caller is the buyer and the deal awaits delivery |
| PetStats.WastedPerBlock | contracts/06-tamagotchi-army/tamagotchi-utils/src/lib.rs:12-25 | every stat loses 1 or 2 per block |
| PetStats.FillPerAction | contracts/06-tamagotchi-army/tamagotchi-utils/src/lib.rs:12-25 | every care action adds 1000 |
| PetStats.WithLevel | contracts/06-tamagotchi-army/tamagotchi-utils/src/lib.rs:260-272 | writing one stat changes that stat and its block and nothing else |
| PetStats.Uniform | contracts/06-tamagotchi-army/tamagotchi-utils/src/lib.rs:31-46 | all three stats hold the same value and block |
| PetStats.StatLost | contracts/06-tamagotchi-army/tamagotchi-utils/src/lib.rs:274-280 | the loss is elapsed blocks times rate whenever the wrapping arithmetic does not wrap |
| PetStats.UpdateStat | contracts/06-tamagotchi-army/tamagotchi-utils/src/lib.rs:274-280 | the auto/army value lies in [1, 10001]. It is 10001 in the block of the last write and 10001 minus the loss while the loss is at most 10000. It is 1 exactly when the loss reaches 10000 |
| PetStats.CurrentStatValue | contracts/03-tamagotchi-nft/src/lib.rs:115-121 | the NFT value lies in [1, 10000]. It is 10000 in the block of the last write and 10000 minus the loss below that. It is 1 exactly when the loss reaches 9999 |
| PetStats.Clamp | contracts/03-tamagotchi-nft/src/lib.rs:123-126 | clamping yields [1, 10000] and leaves in-range values alone |
| PetStats.FillStatValue | contracts/06-tamagotchi-army/tamagotchi-utils/src/lib.rs:282-285 | a refill is the clamped sum, capped at 10000 |
| PetStats.Decayed | contracts/06-tamagotchi-army/tamagotchi-utils/src/lib.rs:287-296 | a current value lies in [1, 10001] (at most 10000 under the NFT rule) and is the maximum in the block of the last write |
| PetStats.FillNeed | contracts/06-tamagotchi-army/tamagotchi-utils/src/lib.rs:260-272 | care sets its stat to min(decayed + 1000, 10000), stamps the current block and leaves the other stats and blocks alone; the reply is the new value |
| PetStats.RefreshAll | contracts/05-tamagotchi-auto/src/lib.rs:181-190 | a refresh sets every stat to its decayed value and keeps the blocks |
| PetStats.ClampedIsOffsetLessOne | contracts/03-tamagotchi-nft/src/lib.rs:115-121 | the NFT value is the auto/army value minus one, floored at 1 |
| PetStats.DecayIsMonotone | contracts/05-tamagotchi-auto/src/lib.rs:168-174 | without wrap-around, a later block never shows a higher value under either rule |
| PetStats.DecayReachesFloor | contracts/05-tamagotchi-auto/src/lib.rs:168-174 | a stat hits 1 after 10000 blocks for hunger and after 5000 for boredom and energy |
| PetStats.FillNeverLowers | contracts/05-tamagotchi-auto/src/lib.rs:154-166 | a care action never lowers a stat below its decayed value, and adds the full 1000 when that stays within 10000 |
| PetCommon.InitPet | contracts/05-tamagotchi-auto/src/lib.rs:20-43 | `init` gives the pet full stats stamped with the current block, the sender as owner, and nothing approved |
| PetCommon.Care | contracts/05-tamagotchi-auto/src/lib.rs:154-166 | care refills one stat to a value in [1, 10000], replies with it and leaves every other field and stat alone |
| PetCommon.HandleCommon | contracts/05-tamagotchi-auto/src/lib.rs:46-131 | a message panics exactly for the army-only actions, an unauthorized transfer, approval or revocation, or a token approval with no token contract set; each other arm changes only the field it names and sends only its call |
| PetCommon.HandleKeepsStatsInRange | contracts/05-tamagotchi-auto/src/lib.rs:46-131 | `init` and every message keep each stat in [1, 10001] |
| PetCommon.ApprovalSurvivesTransfer | contracts/05-tamagotchi-auto/src/lib.rs:86-95 | a transfer does not clear the approval, so the approved account can still take the pet back |
| PetCommon.OldOwnerLosesControl | contracts/05-tamagotchi-auto/src/lib.rs:86-111 | after a transfer the old owner can no longer transfer, approve or revoke |
| PetCommon.RevokeEndsApproval | contracts/05-tamagotchi-auto/src/lib.rs:96-111 | an approved account may transfer, and after a revocation it may not |
| PetAuto.Init | contracts/05-tamagotchi-auto/src/lib.rs:20-43 | the auto pet starts at full stats, owned by the sender, with no approval and no token contract |
| PetAuto.Handle | contracts/05-tamagotchi-auto/src/lib.rs:46-131 | a transfer is allowed exactly for the owner or the approved account, and approval or revocation exactly for the owner; setting the token contract always succeeds, and a token approval succeeds exactly when a contract is set. `CheckState` and `ReserveGas` do not decode |
| PetAuto.StateQuery | contracts/05-tamagotchi-auto/src/lib.rs:134-148 | the state query reports and stores every stat at its decayed value, with the blocks kept and nothing else changed |
| PetAuto.QueryRightAfterInit | contracts/05-tamagotchi-auto/src/lib.rs:168-174 | a query in the creation block stores 10001 in every stat |
| PetNft.Init | contracts/03-tamagotchi-nft/src/lib.rs:17-34 | the NFT pet starts with 9999 in every stat, stamped with the current block and owned by the sender |
| PetNft.Handle | contracts/03-tamagotchi-nft/src/lib.rs:37-78 | exactly the five actions of the program decode. Name and age change nothing. Each care action refills its own stat by the NFT rule and leaves the other stats alone |
| PetNft.CareNft | contracts/03-tamagotchi-nft/src/lib.rs:101-113 | NFT care is the shared refill under the clamped rule, and the reply is the new value |
| PetNft.UpdateStatsAsWritten | contracts/03-tamagotchi-nft/src/lib.rs:128-143 | as written, each stat becomes stored minus recomputed, wrapped modulo 2^32 when the recomputed value is larger |
| PetNft.UpdateStats | contracts/03-tamagotchi-nft/src/lib.rs:128-143 | corrected, each stat becomes its recomputed value in [1, 10000], with the blocks kept |
| PetNft.StateQuery | contracts/03-tamagotchi-nft/src/lib.rs:81-95 | the state query reports and stores the pet with corrected refreshed stats |
| PetNft.NftUnderflowRightAfterInit | contracts/03-tamagotchi-nft/src/lib.rs:134-142 | a query in the creation block stores 4294967295 in every stat as written, and 10000 corrected |
| PetNft.StatsStayBounded | contracts/03-tamagotchi-nft/src/lib.rs:17-143 | with the correction, `init`, every message and every query keep each stat in [1, 10000] |
| PetNft.NftUnderflowWhenStoredNotAbove | contracts/03-tamagotchi-nft/src/lib.rs:134-142 | as written, one query takes an in-range stat out of [1, 10000] exactly when it is stored at or below its recomputed value: equality leaves 0 and a smaller value wraps above 4294967295 - 10000 |
| PetArmy.Init | contracts/06-tamagotchi-army/tamagotchi-utils/src/lib.rs:28-60 | the army pet starts as the shared initial pet, with no reservations and both loop flags down |
| PetArmy.Classify | contracts/06-tamagotchi-army/tamagotchi-utils/src/lib.rs:161-169 | the verdict names the first need at or below 2000, in the order food, play, sleep, and is `NothingToDo` exactly when all three are above |
| PetArmy.Refreshed | contracts/06-tamagotchi-army/tamagotchi-utils/src/lib.rs:287-296 | the refreshed pet has every stat at its decayed value, with the blocks and the other fields kept |
| PetArmy.CheckStateOf | contracts/06-tamagotchi-army/tamagotchi-utils/src/lib.rs:151-205 | a state check from others stores the refreshed stats and replies with the verdict. From the program itself, the check panics exactly when no reservation is left, and otherwise pops the newest reservation and spends it on one delayed message. That message goes to the owner (`MakeReservation`, flags cleared) when it was the last reservation, and is a `CheckState` to itself otherwise |
| PetArmy.ReserveGasOf | contracts/06-tamagotchi-army/tamagotchi-utils/src/lib.rs:206-236 | a reservation succeeds exactly when the host grants one. The first time three are held while the loop is idle, the new reservation is spent on a delayed self-`CheckState` and both flags rise; otherwise it is pushed |
| PetArmy.Handle | contracts/06-tamagotchi-army/tamagotchi-utils/src/lib.rs:63-238 | the two loop actions run their arms, and every other action runs the shared arm on the pet with its reply passed through |
| PetArmy.StateQuery | contracts/06-tamagotchi-army/tamagotchi-utils/src/lib.rs:241-254 | the state query reports and stores the refreshed pet and keeps the reservations and flags |
| PetArmy.HandleKeepsLoopConsistent | contracts/06-tamagotchi-army/tamagotchi-utils/src/lib.rs:176-236 | `init` and every message keep the two flags equal, with at most two reservations while the loop is idle |
| PetArmy.ThirdReservationStartsLoop | contracts/06-tamagotchi-army/tamagotchi-utils/src/lib.rs:206-236 | from a fresh pet, two reservations are kept and the third starts the loop at once |
| PetArmy.RunningLoopOnlyStores | contracts/06-tamagotchi-army/tamagotchi-utils/src/lib.rs:206-236 | while the loop runs, a new reservation is only stored |
| PetArmy.SelfHost | contracts/06-tamagotchi-army/tamagotchi-utils/src/lib.rs:171-176 | a self-delivered message has the program as its sender |
| PetArmy.RunLoop | contracts/06-tamagotchi-army/tamagotchi-utils/src/lib.rs:176-204 | the loop runs exactly when a reservation is held and spends every reservation, newest first. Each spent reservation pays for one self-`CheckState` except the oldest, which pays for `MakeReservation` to the owner. It ends with no reservations and both flags down |
| ArmyIo.CreateTamagotchiFor | contracts/06-tamagotchi-army/io/src/lib.rs:22-46 | creation succeeds exactly when the program is created. It registers the address under the next id, reports it and sends `TmgInit` with the given owner and name |
| ArmyIo.GetTamagotchiAddress | contracts/06-tamagotchi-army/io/src/lib.rs:270-275 | the lookup succeeds exactly for a registered id and returns its address |
| ArmyIo.Command | contracts/06-tamagotchi-army/io/src/lib.rs:48-268 | each relaying factory action sends its namesake tamagotchi action (`FeedTamagotchi` sends `Feed`, `ReserveGasToTamagotchi` sends `ReserveGas`, and so on), passing every argument except the tamagotchi id through unchanged |
| ArmyIo.CommandKeepsArguments | contracts/06-tamagotchi-army/src/lib.rs:26-97 | two relayed actions send the same tamagotchi action exactly when they differ at most in the tamagotchi id |
| ArmyIo.CheckReply | contracts/06-tamagotchi-army/io/src/lib.rs:48-268 | corrected, each relay accepts exactly the tamagotchi events that confirm its action, and for every accepted event the factory replies with its namesake (`Fed` with `Fed`, `GasReserved` with `GasReserved`, and so on), keeping its payload, except that `Transfer` and `Approve` echo the request's argument |
| ArmyIo.CheckReplyAsWritten | contracts/06-tamagotchi-army/io/src/lib.rs:105-127 | as written, the transfer and approval checks reject exactly the confirming event; every other check is the corrected one |
| ArmyIo.Relay | contracts/06-tamagotchi-army/io/src/lib.rs:277-290 | a relay succeeds exactly for a registered id whose reply decodes and passes the check. It sends the action with the caller's value and never changes the registry |
| ArmyProgram.Init | contracts/06-tamagotchi-army/src/lib.rs:10-17 | `init` creates an empty registry for the given code |
| ArmyProgram.Current | contracts/06-tamagotchi-army/src/lib.rs:21-22 | `main` works on the stored registry, or on the default one |
| ArmyProgram.Handle | contracts/06-tamagotchi-army/src/lib.rs:20-99 | creation makes the factory the owner, whoever asks; every other action relays its command and leaves the registry unchanged |
| ArmyProgram.StateQuery | contracts/06-tamagotchi-army/src/lib.rs:102-110 | the state query replies with the registry and leaves it as it is |
| ArmyProgram.CreationIsFresh | contracts/06-tamagotchi-army/io/src/lib.rs:36-45 | creation keeps ids within the counter. Below saturation it issues an unused id and keeps every earlier entry |
| ArmyProgram.UnknownIdPanics | contracts/06-tamagotchi-army/io/src/lib.rs:270-275 | relaying to an unregistered id always panics |
| ArmyProgram.TransferConfirmationRejectedAsWritten | contracts/06-tamagotchi-army/io/src/lib.rs:110-112 | as written, the pet's `Transferred` confirmation makes the factory abort while a non-confirming reply is accepted; corrected, it is the other way round |
| ArmyProgram.ApprovalConfirmationRejectedAsWritten | contracts/06-tamagotchi-army/io/src/lib.rs:122-124 | as written, the pet's `Approved` confirmation makes the factory abort; corrected, it is accepted |
| ArmyProgram.HealthyPetAbortsStateCheck | contracts/06-tamagotchi-army/io/src/lib.rs:235-242 | a relayed state check aborts exactly when the pet answers `NothingToDo`, which the factory has no event for |

## Left out

- Partial commits at `await` points are not modelled. Gear persists a program's memory while it waits for a reply, so another message can run in between; each handler is modelled as one atomic step that the host's replies feed.
- Gas amounts, gas reservation internals and reservation expiry are not modelled. A reservation is an opaque id that the host grants or refuses.
- The SCALE encoding of messages is not modelled, so two encoding mismatches are left out:
  - The auto and army pets reply to care actions with a decimal string, while the army factory's feed, play and sleep methods expect `Fed`, `Entertained` and `Slept`.
  - The army factory initialises a pet with `TmgInit`, while the army pet decodes its name as a plain string and takes the sender as owner.
  - The factory's reply checks are modelled on the decoded event it receives.
- Debug-build overflow panics are not modelled. Integer overflow wraps, as in a release build.
- The textual init replies and the `debug!` output are not modelled.
- The randomness source is a parameter: every call to the host's random function is a separate 32-byte hash. The source calls it with the same fixed subject each time (`contracts/07-tamagotchi-battle/io/src/lib.rs:296, 307, 337`), so within one message the hashes may coincide; the model allows every combination, coinciding ones included, so for instance the second player's side may equal the opening turn.
- The 01 and 02 tamagotchi programs are not modelled. Neither is the 04 shop program; of it, only its action and event types serve as the auto pet's decoding.
- The escrow's state metadata crate and build script are not modelled.
- The escrow factory's `init`, `handle` and `state` entry points are not modelled; its factory methods in `contracts/escrow-factory/io/src/lib.rs` are modelled in full.
- Messages handled before `init` has run are not modelled. The escrow's `handle` and `state` assume an initialised escrow.
- The 03 NFT tests transfer the pet, but that program cannot decode `Transfer`, so the model follows the program.
- The token program and the attribute store are not modelled. Their replies to the pets' `ApproveTokens` and `BuyAttribute` calls are awaited and then ignored, so these calls appear only as effects.
- PetNft.StateQuery: uses the corrected `update_stats` rather than the wrapping subtraction the code performs; PetNft.UpdateStatsAsWritten models the code.
- ArmyIo.Relay: uses the corrected reply checks for `Transfer` and `Approve`; ArmyIo.CheckReplyAsWritten models the code.

## Findings

| source | as written | input that shows it | evidently intended | confidence | as-written member | corrected member |
|---|---|---|---|---|---|---|
| contracts/03-tamagotchi-nft/src/lib.rs:134-142 | `update_stats` subtracts the recomputed value from each stored stat (`-=`) | query the pet in the block it was created in: every stat becomes 9999 - 10000, which wraps to 4294967295 (a debug build panics) | each stat is assigned its recomputed value, as in the auto and army variants | not executed | PetNft.UpdateStatsAsWritten, PetNft.NftUnderflowRightAfterInit | PetNft.UpdateStats |
| contracts/06-tamagotchi-army/io/src/lib.rs:110-112, 122-124 | `transfer_tamagotchi` and `approve_user` panic when the pet replies `Transferred` or `Approved` and accept any other reply | a successful `TransferTamagotchi`: the pet confirms with `Transferred(new_owner)` and the factory aborts | panic unless the reply is the confirming event | not executed | ArmyIo.CheckReplyAsWritten, ArmyProgram.TransferConfirmationRejectedAsWritten | ArmyIo.CheckReply |

=== FILE: army_io.dfy ===
/**
 The registry of `contracts/06-tamagotchi-army`: it creates tamagotchi
 programs, numbers them 1, 2, 3, ... with a saturating `u64` counter, and
 relays actions to them, translating each tamagotchi's reply into one of its
 own events after checking that the reply fits the action.

 The address of a newly created program and the reply of the tamagotchi
 (`None` when it does not decode as a `TmgEvent`) are parameters. The
 forwarded message carries the value attached to the factory's message.

 Two of the reply checks are inverted in the source: `transfer_tamagotchi`
 and `approve_user` abort when the tamagotchi confirms. `CheckReplyAsWritten`
 models the checks as written, `CheckReply` as intended; the factory uses
 `CheckReply`.
 */
module ArmyIo {
  import opened Prim
  import opened PetIo

  type TamagotchiId = u64

  datatype TamagotchiFactory = TamagotchiFactory(
    tamagotchiNumber: TamagotchiId,
    idToAddress: map<TamagotchiId, ActorId>,
    tamagotchiCodeId: CodeId)

  datatype FactoryAction =
    | CreateTamagotchi(name: string)
    | NameTamagotchi(tamagotchiId: TamagotchiId)
    | AgeTamagotchi(tamagotchiId: TamagotchiId)
    | FeedTamagotchi(tamagotchiId: TamagotchiId)
    | PlayWithTamagotchi(tamagotchiId: TamagotchiId)
    | SleepTamagotchi(tamagotchiId: TamagotchiId)
    | TransferTamagotchi(tamagotchiId: TamagotchiId, newOwner: ActorId)
    | ApproveUser(tamagotchiId: TamagotchiId, user: ActorId)
    | RemoveUserApproval(tamagotchiId: TamagotchiId)
    | SetFtTokenContract(tamagotchiId: TamagotchiId, ftTokenContract: ActorId)
    | ApproveTokens(tamagotchiId: TamagotchiId, user: ActorId, amount: u128)
    | BuyAttributeToTamagotchi(tamagotchiId: TamagotchiId, storeId: ActorId, attributeId: AttributeId)
    | CheckTamagotchiState(tamagotchiId: TamagotchiId)
    | ReserveGasToTamagotchi(tamagotchiId: TamagotchiId, reservationAmount: u64, duration: u32)

  datatype FactoryEvent =
    | TamagotchiCreated(tamagotchiId: TamagotchiId, tamagotchiAddress: ActorId)
    | Name(name: string)
    | Age(age: u64)
    | Fed
    | Entertained
    | Slept
    | Transferred(newOwner: ActorId)
    | Approved(account: ActorId)
    | ApprovalRevoked
    | FtTokenContractSet
    | TokensApproved(account: ActorId, amount: u128)
    | ApprovalError
    | AttributeBought(attributeId: AttributeId)
    | CompletePrevPurchase(attributeId: AttributeId)
    | ErrorDuringPurchase
    | FeedMe
    | PlayWithMe
    | WantToSleep
    | MakeReservation
    | GasReserved

  /** A message the factory sends besides its reply. */
  datatype Effect =
    | CreateProgram(codeId: CodeId, init: TmgInit)
    | SendToTamagotchi(dest: ActorId, action: TmgAction, value: u128)

  datatype Step = Step(factory: TamagotchiFactory, reply: FactoryEvent, effects: seq<Effect>)

  /**
   `create_tamagotchi`: creates a tamagotchi for `owner`, then increments the
   counter and registers the new address under it. Panics when the program
   cannot be created.
   */
  function CreateTamagotchiFor(f: TamagotchiFactory, owner: ActorId, name: string,
                               created: Option<ActorId>): (r: Result<Step>)
    ensures r.Ok? <==> created.Some?
    ensures r.Ok? ==>
      var id := NextId(f.tamagotchiNumber);
      && r.value.factory == f.(tamagotchiNumber := id, idToAddress := f.idToAddress[id := created.value])
      && r.value.reply == TamagotchiCreated(id, created.value)
      && r.value.effects == [CreateProgram(f.tamagotchiCodeId, TmgInit(owner, name))]
  {
    match created
    case None => Panic("Program was not initialized")
    case Some(address) =>
      var id := NextId(f.tamagotchiNumber);
      Ok(Step(f.(tamagotchiNumber := id, idToAddress := f.idToAddress[id := address]),
              TamagotchiCreated(id, address),
              [CreateProgram(f.tamagotchiCodeId, TmgInit(owner, name))]))
  }

  /** `get_tamagotchi_address`: panics for an id never registered. */
  function GetTamagotchiAddress(f: TamagotchiFactory, id: TamagotchiId): (r: Result<ActorId>)
    ensures r.Ok? <==> id in f.idToAddress
    ensures r.Ok? ==> r.value == f.idToAddress[id]
  {
    if id in f.idToAddress then Ok(f.idToAddress[id])
    else Panic("This tamagotchi id does not exist")
  }

  /**
   The tamagotchi action each relaying factory action sends, with the same
   arguments (`ApproveTokens` drops the tamagotchi id).
   */
  function Command(a: FactoryAction): (cmd: TmgAction)
    requires !a.CreateTamagotchi?
    ensures a.NameTamagotchi? <==> cmd.Name?
    ensures a.AgeTamagotchi? <==> cmd.Age?
    ensures a.FeedTamagotchi? <==> cmd.Feed?
    ensures a.PlayWithTamagotchi? <==> cmd.Entertain?
    ensures a.SleepTamagotchi? <==> cmd.Sleep?
    ensures a.RemoveUserApproval? <==> cmd.RevokeApproval?
    ensures a.CheckTamagotchiState? <==> cmd.CheckState?
    ensures a.TransferTamagotchi? <==> cmd.Transfer?
    ensures a.TransferTamagotchi? ==> cmd == Transfer(a.newOwner)
    ensures a.ApproveUser? <==> cmd.Approve?
    ensures a.ApproveUser? ==> cmd == Approve(a.user)
    ensures a.SetFtTokenContract? <==> cmd.SetFTokenContract?
    ensures a.SetFtTokenContract? ==> cmd == SetFTokenContract(a.ftTokenContract)
    ensures a.ApproveTokens? <==> cmd.ApproveTokens?
    ensures a.ApproveTokens? ==> cmd == TmgAction.ApproveTokens(a.user, a.amount)
    ensures a.BuyAttributeToTamagotchi? <==> cmd.BuyAttribute?
    ensures a.BuyAttributeToTamagotchi? ==> cmd == BuyAttribute(a.storeId, a.attributeId)
    ensures a.ReserveGasToTamagotchi? <==> cmd.ReserveGas?
    ensures a.ReserveGasToTamagotchi? ==> cmd == ReserveGas(a.reservationAmount, a.duration)
  {
    match a
    case NameTamagotchi(_) => TmgAction.Name
    case AgeTamagotchi(_) => TmgAction.Age
    case FeedTamagotchi(_) => Feed
    case PlayWithTamagotchi(_) => Entertain
    case SleepTamagotchi(_) => Sleep
    case TransferTamagotchi(_, newOwner) => Transfer(newOwner)
    case ApproveUser(_, user) => Approve(user)
    case RemoveUserApproval(_) => RevokeApproval
    case SetFtTokenContract(_, contract) => SetFTokenContract(contract)
    case ApproveTokens(_, user, amount) => TmgAction.ApproveTokens(user, amount)
    case BuyAttributeToTamagotchi(_, store, attribute) => BuyAttribute(store, attribute)
    case CheckTamagotchiState(_) => CheckState
    case ReserveGasToTamagotchi(_, amount, duration) => ReserveGas(amount, duration)
  }

  /**
   Two relayed actions send the same tamagotchi action exactly when they
   differ at most in the tamagotchi they address: no argument is dropped or
   altered on the way.
   */
  lemma CommandKeepsArguments(a: FactoryAction, b: FactoryAction)
    requires !a.CreateTamagotchi? && !b.CreateTamagotchi?
    ensures Command(a) == Command(b) <==> a.(tamagotchiId := 0) == b.(tamagotchiId := 0)
  {
  }

  /**
   The reply checks of the relaying methods, as intended: every action
   accepts exactly the tamagotchi events that confirm it, and the factory's
   event mirrors the accepted one.
   */
  function CheckReply(cmd: TmgAction, reply: TmgEvent): (r: Result<FactoryEvent>)
    ensures cmd.Transfer? ==> (r.Ok? <==> reply.Transferred?) && (r.Ok? ==> r.value == FactoryEvent.Transferred(cmd.newOwner))
    ensures cmd.Approve? ==> (r.Ok? <==> reply.Approved?) && (r.Ok? ==> r.value == FactoryEvent.Approved(cmd.account))
    ensures cmd.CheckState? ==>
      && (r.Ok? <==> reply.FeedMe? || reply.PlayWithMe? || reply.WantToSleep?)
      && (reply.FeedMe? ==> r == Ok(FactoryEvent.FeedMe))
      && (reply.PlayWithMe? ==> r == Ok(FactoryEvent.PlayWithMe))
      && (reply.WantToSleep? ==> r == Ok(FactoryEvent.WantToSleep))
    ensures cmd.ApproveTokens? ==>
      && (r.Ok? <==> reply.ApprovalError? || reply == TmgEvent.TokensApproved(cmd.account, cmd.amount))
      && (reply.ApprovalError? ==> r == Ok(FactoryEvent.ApprovalError))
      && (r.Ok? && !reply.ApprovalError? ==> r.value == FactoryEvent.TokensApproved(cmd.account, cmd.amount))
    ensures cmd.BuyAttribute? ==>
      && (r.Ok? <==> reply.ErrorDuringPurchase? || reply.CompletePrevPurchase?
                     || reply == TmgEvent.AttributeBought(cmd.attributeId))
      && (reply.ErrorDuringPurchase? ==> r == Ok(FactoryEvent.ErrorDuringPurchase))
      && (reply.CompletePrevPurchase? ==> r == Ok(FactoryEvent.CompletePrevPurchase(reply.attributeId)))
      && (reply == TmgEvent.AttributeBought(cmd.attributeId) ==> r == Ok(FactoryEvent.AttributeBought(cmd.attributeId)))
    ensures cmd.Feed? ==> (r.Ok? <==> reply.Fed?) && (r.Ok? ==> r.value == FactoryEvent.Fed)
    ensures cmd.Entertain? ==> (r.Ok? <==> reply.Entertained?) && (r.Ok? ==> r.value == FactoryEvent.Entertained)
    ensures cmd.Sleep? ==> (r.Ok? <==> reply.Slept?) && (r.Ok? ==> r.value == FactoryEvent.Slept)
    ensures cmd.RevokeApproval? ==>
      (r.Ok? <==> reply.ApprovalRevoked?) && (r.Ok? ==> r.value == FactoryEvent.ApprovalRevoked)
    ensures cmd.SetFTokenContract? ==>
      (r.Ok? <==> reply.FTokenContractSet?) && (r.Ok? ==> r.value == FactoryEvent.FtTokenContractSet)
    ensures cmd.ReserveGas? ==> (r.Ok? <==> reply.GasReserved?) && (r.Ok? ==> r.value == FactoryEvent.GasReserved)
    ensures cmd.Name? ==> (r.Ok? <==> reply.Name?) && (r.Ok? ==> r.value == FactoryEvent.Name(reply.name))
    ensures cmd.Age? ==> (r.Ok? <==> reply.Age?) && (r.Ok? ==> r.value == FactoryEvent.Age(reply.age))
  {
    match cmd
    case Transfer(newOwner) =>
      if reply.Transferred? then Ok(FactoryEvent.Transferred(newOwner)) else Panic("Incorrect answer from tamagotchi contract")
    case Approve(user) =>
      if reply.Approved? then Ok(FactoryEvent.Approved(user)) else Panic("Incorrect answer from tamagotchi contract")
    case _ => CheckOtherReply(cmd, reply)
  }

  /**
   The reply checks as the source writes them: identical to `CheckReply`
   except that `Transfer` and `Approve` abort on the confirming event (with
   any payload) and accept every other reply.
   */
  function CheckReplyAsWritten(cmd: TmgAction, reply: TmgEvent): (r: Result<FactoryEvent>)
    ensures cmd.Transfer? ==> (r.Ok? <==> !reply.Transferred?) && (r.Ok? ==> r.value == FactoryEvent.Transferred(cmd.newOwner))
    ensures cmd.Approve? ==> (r.Ok? <==> !reply.Approved?) && (r.Ok? ==> r.value == FactoryEvent.Approved(cmd.account))
    ensures !cmd.Transfer? && !cmd.Approve? ==> r == CheckReply(cmd, reply)
  {
    match cmd
    case Transfer(newOwner) =>
      if reply.Transferred? then Panic("Incorrect answer from tamagotchi contract") else Ok(FactoryEvent.Transferred(newOwner))
    case Approve(user) =>
      if reply.Approved? then Panic("Incorrect answer from tamagotchi contract") else Ok(FactoryEvent.Approved(user))
    case _ => CheckOtherReply(cmd, reply)
  }

  /** The checks of every relaying method except the transfer and the approval. */
  function CheckOtherReply(cmd: TmgAction, reply: TmgEvent): (r: Result<FactoryEvent>)
    requires !cmd.Transfer? && !cmd.Approve?
  {
    var incorrect := Panic("Incorrect answer from tamagotchi contract");
    match cmd
    case Name => if reply.Name? then Ok(FactoryEvent.Name(reply.name)) else incorrect
    case Age => if reply.Age? then Ok(FactoryEvent.Age(reply.age)) else incorrect
    case Feed => if reply == TmgEvent.Fed then Ok(FactoryEvent.Fed) else incorrect
    case Entertain => if reply == TmgEvent.Entertained then Ok(FactoryEvent.Entertained) else incorrect
    case Sleep => if reply == TmgEvent.Slept then Ok(FactoryEvent.Slept) else incorrect
    case RevokeApproval => if reply == TmgEvent.ApprovalRevoked then Ok(FactoryEvent.ApprovalRevoked) else incorrect
    case SetFTokenContract(_) => if reply == FTokenContractSet then Ok(FtTokenContractSet) else incorrect
    case ApproveTokens(account, amount) =>
      if reply == TmgEvent.ApprovalError then Ok(FactoryEvent.ApprovalError)
      else if reply == TmgEvent.TokensApproved(account, amount) then Ok(FactoryEvent.TokensApproved(account, amount))
      else incorrect
    case BuyAttribute(_, attributeId) =>
      if reply == TmgEvent.ErrorDuringPurchase then Ok(FactoryEvent.ErrorDuringPurchase)
      else if reply.CompletePrevPurchase? then Ok(FactoryEvent.CompletePrevPurchase(reply.attributeId))
      else if reply == TmgEvent.AttributeBought(attributeId) then Ok(FactoryEvent.AttributeBought(attributeId))
      else incorrect
    case CheckState =>
      if reply == TmgEvent.FeedMe then Ok(FactoryEvent.FeedMe)
      else if reply == TmgEvent.PlayWithMe then Ok(FactoryEvent.PlayWithMe)
      else if reply == TmgEvent.WantToSleep then Ok(FactoryEvent.WantToSleep)
      else incorrect
    case ReserveGas(_, _) => if reply == TmgEvent.GasReserved then Ok(FactoryEvent.GasReserved) else incorrect
  }

  /**
   A relaying method: looks up the tamagotchi, sends it the action with the
   caller's attached value, and checks its reply. The registry is never
   changed.
   */
  function Relay(f: TamagotchiFactory, id: TamagotchiId, cmd: TmgAction, value: u128,
                 reply: Option<TmgEvent>): (r: Result<Step>)
    ensures r.Ok? <==> id in f.idToAddress && reply.Some? && CheckReply(cmd, reply.value).Ok?
    ensures r.Ok? ==>
      && r.value.factory == f
      && r.value.effects == [SendToTamagotchi(f.idToAddress[id], cmd, value)]
      && r.value.reply == CheckReply(cmd, reply.value).value
  {
    match GetTamagotchiAddress(f, id)
    case Panic(reason) => Panic(reason)
    case Ok(address) =>
      match reply
      case None => Panic("Unable to decode EscrowEvent")
      case Some(event) =>
        match CheckReply(cmd, event)
        case Panic(reason) => Panic(reason)
        case Ok(answer) => Ok(Step(f, answer, [SendToTamagotchi(address, cmd, value)]))
  }
}

=== FILE: army_program.dfy ===
/**
 The entry points of `contracts/06-tamagotchi-army`: `init` builds an empty
 registry for the given tamagotchi code, `main` runs one factory method on
 the stored registry (a default one when none is stored), and `state`
 replies with the registry.
 */
module ArmyProgram {
  import opened Prim
  import opened PetIo
  import opened ArmyIo
  import PetCommon
  import PetArmy

  /** Everything the host supplies to one `main` call. */
  datatype Host = Host(
    source: ActorId,
    programId: ActorId,
    value: u128,
    created: Option<ActorId>,
    reply: Option<TmgEvent>)

  /** `init`: no tamagotchis yet, the counter at zero, and the code id from the payload. */
  function Init(codeId: CodeId): (f: TamagotchiFactory)
    ensures f.tamagotchiNumber == 0 && f.idToAddress == map[] && f.tamagotchiCodeId == codeId
  {
    TamagotchiFactory(0, map[], codeId)
  }

  /** The registry `main` works on: the stored one, or `TamagotchiFactory::default()`. */
  function Current(stored: Option<TamagotchiFactory>): (f: TamagotchiFactory)
    ensures stored.Some? ==> f == stored.value
    ensures stored.None? ==> f == Init(0)
  {
    stored.GetOr(TamagotchiFactory(0, map[], 0))
  }

  /**
   `main`: `CreateTamagotchi` creates a tamagotchi owned by the factory
   itself, not by the caller; every other action relays the matching
   tamagotchi action to the tamagotchi with the given id, leaving the registry
   unchanged.
   */
  function Handle(stored: Option<TamagotchiFactory>, action: FactoryAction, host: Host): (r: Result<Step>)
    ensures action.CreateTamagotchi? ==>
      r == CreateTamagotchiFor(Current(stored), host.programId, action.name, host.created)
    ensures !action.CreateTamagotchi? ==>
      r == Relay(Current(stored), action.tamagotchiId, Command(action), host.value, host.reply)
    ensures !action.CreateTamagotchi? && r.Ok? ==> r.value.factory == Current(stored)
  {
    var factory := Current(stored);
    match action
    case CreateTamagotchi(name) => CreateTamagotchiFor(factory, host.programId, name, host.created)
    case _ => Relay(factory, action.tamagotchiId, Command(action), host.value, host.reply)
  }

  /** `state`: replies with the registry and leaves it as it is. */
  function StateQuery(f: TamagotchiFactory): (r: (TamagotchiFactory, TamagotchiFactory))
    ensures r.0 == f && r.1 == f
  {
    (f, f)
  }

  /** Every registered id lies in `1 ..= tamagotchiNumber`. */
  predicate IdsIssued(f: TamagotchiFactory) {
    forall id | id in f.idToAddress :: 1 <= id <= f.tamagotchiNumber
  }

  /**
   Creation keeps the ids within the counter; until the counter saturates the
   new tamagotchi gets an id nobody had, so every earlier entry survives.
   Whoever asks, the new tamagotchi is created for the factory.
   */
  lemma CreationIsFresh(stored: Option<TamagotchiFactory>, name: string, host: Host)
    requires IdsIssued(Current(stored)) && host.created.Some?
    ensures var f := Current(stored);
            var r := Handle(stored, CreateTamagotchi(name), host);
            && r.Ok? && IdsIssued(r.value.factory)
            && r.value.effects == [CreateProgram(f.tamagotchiCodeId, TmgInit(host.programId, name))]
            && (f.tamagotchiNumber < U64_MAX ==>
                  && f.tamagotchiNumber + 1 !in f.idToAddress
                  && r.value.reply == TamagotchiCreated(f.tamagotchiNumber + 1, host.created.value)
                  && forall id | id in f.idToAddress ::
                       id in r.value.factory.idToAddress && r.value.factory.idToAddress[id] == f.idToAddress[id])
  {
  }

  /** Relaying to an unknown id panics, whatever the tamagotchi would answer. */
  lemma UnknownIdPanics(stored: Option<TamagotchiFactory>, action: FactoryAction, host: Host)
    requires !action.CreateTamagotchi? && action.tamagotchiId !in Current(stored).idToAddress
    ensures Handle(stored, action, host).Panic?
  {
  }

  /**
   As written, a transfer the tamagotchi carries out makes the factory abort:
   the tamagotchi confirms with `Transferred`, which is exactly the reply
   `transfer_tamagotchi` rejects, while a reply that confirms nothing is
   accepted as a transfer. The intended check accepts the confirmation.
   */
  lemma TransferConfirmationRejectedAsWritten(p: PetCommon.Pet, newOwner: ActorId, clock: PetCommon.Clock)
    requires PetCommon.MayTransfer(p, clock.source)
    ensures var r := PetCommon.HandleCommon(p, Transfer(newOwner), clock);
            && r.Ok? && r.value.reply.Event?
            && CheckReplyAsWritten(Transfer(newOwner), r.value.reply.event).Panic?
            && CheckReply(Transfer(newOwner), r.value.reply.event) == Ok(FactoryEvent.Transferred(newOwner))
    ensures CheckReplyAsWritten(Transfer(newOwner), TmgEvent.ApprovalRevoked).Ok?
    ensures CheckReply(Transfer(newOwner), TmgEvent.ApprovalRevoked).Panic?
  {
  }

  /** The same inversion in `approve_user`: the tamagotchi's `Approved` makes the factory abort. */
  lemma ApprovalConfirmationRejectedAsWritten(p: PetCommon.Pet, user: ActorId, clock: PetCommon.Clock)
    requires clock.source == p.owner
    ensures var r := PetCommon.HandleCommon(p, Approve(user), clock);
            && r.Ok? && r.value.reply.Event?
            && CheckReplyAsWritten(Approve(user), r.value.reply.event).Panic?
            && CheckReply(Approve(user), r.value.reply.event) == Ok(FactoryEvent.Approved(user))
  {
  }

  /**
   A healthy tamagotchi breaks the state check: when none of its stats is
   at or below 2000 it answers `NothingToDo`, which the factory has no event
   for, so the factory aborts.
   */
  lemma HealthyPetAbortsStateCheck(s: PetArmy.State, petHost: PetArmy.Host, stored: Option<TamagotchiFactory>,
                                   id: TamagotchiId, host: Host)
    requires petHost.programId != petHost.clock.source
    requires id in Current(stored).idToAddress
    ensures var answer := PetArmy.Handle(s, CheckState, petHost);
            && answer.Ok? && answer.value.reply.Some? && answer.value.reply.value.Event?
            && var event := answer.value.reply.value.event;
            && (event.NothingToDo? ==> Handle(stored, CheckTamagotchiState(id), host.(reply := Some(event))).Panic?)
            && (!event.NothingToDo? ==> Handle(stored, CheckTamagotchiState(id), host.(reply := Some(event))).Ok?)
  {
  }
}

=== FILE: battle_io.dfy ===
/**
 The battle session of `contracts/07-tamagotchi-battle`: two tamagotchis
 register, then their owners take turns attacking or defending until one
 tamagotchi's energy reaches zero. After a round of moves the battle pauses
 in `Waiting` until a delayed message from the program to itself refreshes
 both players' attributes.

 Every host call is a parameter: the sender, the program's own address, the
 replies of the tamagotchi (its owner) and of the attribute store, and the
 32-byte hashes the host's randomness source returns. Messages the handler
 sends besides its reply are returned as a list of effects.
 */
module BattleIo {
  import opened Prim

  const MAX_POWER: u16 := 10_000
  const MIN_POWER: u16 := 3_000

  const MAX_ENERGY: u16 := 20_000
  const MIN_ENERGY: u16 := 6_000

  const IRON_SWORD_POWER: u16 := 2
  const IRON_SWORD_ID: AttributeId := 1
  const BRONZE_SWORD_POWER: u16 := 5
  const BRONZE_SWORD_ID: AttributeId := 2
  const SILVER_SWORD_POWER: u16 := 8
  const SILVER_SWORD_ID: AttributeId := 3

  const IRON_SHIELD_PROTECTION: u16 := 2000
  const IRON_SHIELD_ID: AttributeId := 1
  const BRONZE_SHIELD_PROTECTION: u16 := 5000
  const BRONZE_SHIELD_ID: AttributeId := 2
  const SILVER_SHIELD_PROTECTION: u16 := 8000
  const SILVER_SHIELD_ID: AttributeId := 3

  const TIME_FOR_UPDATE: u32 := 500
  const MAX_STEPS_FOR_ROUND: u8 := 3
  const GAS_AMOUNT: u64 := 100_000_000

  const ATTACK: string := "ATTACK"
  const DEFEND: string := "DEFEND"
  const LEFT: string := "LEFT"
  const RIGHT: string := "RIGHT"

  type AttributeId = u32
  type TamagotchiId = ActorId

  datatype BattleState = Registration | Moves | Waiting | GameIsOver

  datatype Player = Player(
    owner: ActorId,
    tmgId: TamagotchiId,
    energy: u16,
    power: u16,
    attributes: set<AttributeId>,
    actualSide: string,
    combatPosition: string)

  datatype Battle = Battle(
    players: seq<Player>,
    state: BattleState,
    currentTurn: u8,
    tmgStoreId: ActorId,
    winner: ActorId,
    steps: u8)

  datatype BattleAction =
    | Register(tmgId: TamagotchiId)
    | Move(direction: string, combatAction: string)
    | UpdateInfo
    | ResetContract

  datatype BattleEvent =
    | Registered(tmgId: TamagotchiId)
    | Moved(tmgId: TamagotchiId, steps: u8)
    | GameOver(winner: ActorId)
    | GoToWaitingState
    | InfoUpdated
    | GameIsOver
    | MoveMade
    | AttackMissed
    | RestartedContract
    | SuccessfullyAttacked
    | SuccessfullyDefended

  /** The tamagotchi's reply to the `Owner` query; any other reply is `NotOwner`. */
  datatype OwnerReply = Owner(owner: ActorId) | NotOwner

  /** The attribute store's reply to `GetAttributes`; any other reply is `NotAttributes`. */
  datatype StoreReply = Attributes(attributes: set<AttributeId>) | NotAttributes

  /** A message the handler sends besides its reply. */
  datatype Effect =
    | AskOwner(tmgId: TamagotchiId)
    | AskAttributes(store: ActorId, tmgId: TamagotchiId)
    | Notify(dest: ActorId, event: BattleEvent)
    | SendDelayedToSelf(action: BattleAction, gas: u64, delay: u32)

  /** A successfully handled message: the new battle, the reply and the other sends. */
  datatype Step = Step(battle: Battle, reply: BattleEvent, effects: seq<Effect>)

  // ---------------------------------------------------------------------------
  // Randomness

  /** The first two bytes of a random hash, big-endian, reduced modulo `modulus`. */
  function RawRoll(random: RandomHash, modulus: u16): (r: u16)
    requires 0 < modulus
    ensures r < modulus
  {
    BeU16(random[0], random[1]) % modulus
  }

  /** `generate_power`: a roll below `MIN_POWER` is replaced by half of `MAX_POWER`. */
  function GeneratePower(random: RandomHash): (r: u16)
    ensures MIN_POWER <= r < MAX_POWER
    ensures MIN_POWER <= RawRoll(random, MAX_POWER) ==> r == RawRoll(random, MAX_POWER)
    ensures RawRoll(random, MAX_POWER) < MIN_POWER ==> r == MAX_POWER / 2
  {
    var roll := RawRoll(random, MAX_POWER);
    if roll < MIN_POWER then MAX_POWER / 2 else roll
  }

  /** `generate_energy`: a roll below `MIN_ENERGY` is replaced by half of `MAX_ENERGY`. */
  function GenerateEnergy(random: RandomHash): (r: u16)
    ensures MIN_ENERGY <= r < MAX_ENERGY
    ensures MIN_ENERGY <= RawRoll(random, MAX_ENERGY) ==> r == RawRoll(random, MAX_ENERGY)
    ensures RawRoll(random, MAX_ENERGY) < MIN_ENERGY ==> r == MAX_ENERGY / 2
  {
    var roll := RawRoll(random, MAX_ENERGY);
    if roll < MIN_ENERGY then MAX_ENERGY / 2 else roll
  }

  /** `get_turn`: the low bit of the first random byte. */
  function GetTurn(random: RandomHash): (r: u8)
    ensures r <= 1
    ensures r == 0 <==> random[0] % 2 == 0
  {
    random[0] % 2
  }

  /** The side a registering player starts on: 0 is left, anything else right. */
  function SideOf(position: u8): (side: string)
    ensures side == LEFT <==> position == 0
    ensures side == LEFT || side == RIGHT
  {
    if position == 0 then LEFT else RIGHT
  }

  /** The power stored for a player is `MAX_POWER` minus the rolled power. */
  function StoredPower(random: RandomHash): (r: u16)
    ensures 1 <= r <= MAX_POWER - MIN_POWER
    ensures r + GeneratePower(random) == MAX_POWER
  {
    MAX_POWER - GeneratePower(random)
  }

  /** A hash whose first two bytes are the big-endian encoding of `v`. */
  function HashOf(v: u16): (h: RandomHash)
    ensures BeU16(h[0], h[1]) == v
  {
    [v / 0x100, v % 0x100] + seq(30, _ => 0)
  }

  // ---------------------------------------------------------------------------
  // Combat resolution

  /** The attack multiplier: the first sword found in the order iron, bronze, silver. */
  function SwordPower(attributes: set<AttributeId>): (r: u16)
    ensures 1 <= r <= SILVER_SWORD_POWER
    ensures IRON_SWORD_ID in attributes ==> r == IRON_SWORD_POWER
    ensures r == 1 <==> IRON_SWORD_ID !in attributes && BRONZE_SWORD_ID !in attributes && SILVER_SWORD_ID !in attributes
  {
    if IRON_SWORD_ID in attributes then IRON_SWORD_POWER
    else if BRONZE_SWORD_ID in attributes then BRONZE_SWORD_POWER
    else if SILVER_SWORD_ID in attributes then SILVER_SWORD_POWER
    else 1
  }

  /** The defence bonus: the first shield found in the order iron, bronze, silver. */
  function ShieldProtection(attributes: set<AttributeId>): (r: u16)
    ensures 1 <= r <= SILVER_SHIELD_PROTECTION
    ensures IRON_SHIELD_ID in attributes ==> r == IRON_SHIELD_PROTECTION
    ensures r == 1 <==> IRON_SHIELD_ID !in attributes && BRONZE_SHIELD_ID !in attributes && SILVER_SHIELD_ID !in attributes
  {
    if IRON_SHIELD_ID in attributes then IRON_SHIELD_PROTECTION
    else if BRONZE_SHIELD_ID in attributes then BRONZE_SHIELD_PROTECTION
    else if SILVER_SHIELD_ID in attributes then SILVER_SHIELD_PROTECTION
    else 1
  }

  /** The mover's and the opponent's records after one action, and the notices to the mover. */
  datatype Exchange = Exchange(mover: Player, opponent: Player, notices: seq<Effect>)

  /**
   One `ATTACK` or `DEFEND`, applied to copies of the two players. An attack
   that lands on the opponent's side drains `sword * power` energy from the
   opponent (floored at zero); a defence on the opponent's side adds the
   shield's protection to the mover. Any other action changes nothing.
   */
  function Resolve(player: Player, opponent: Player, direction: string, combatAction: string): (x: Exchange)
    ensures x.opponent == opponent.(energy := x.opponent.energy)
    ensures x.opponent.energy <= opponent.energy
    ensures combatAction != ATTACK ==> x.opponent == opponent
    ensures combatAction == ATTACK && direction == opponent.actualSide ==>
      x.opponent.energy == SaturatingSub(opponent.energy, WrappingMul16(SwordPower(player.attributes), player.power))
    ensures combatAction == ATTACK && direction != opponent.actualSide ==> x.opponent == opponent
    ensures combatAction == ATTACK || combatAction == DEFEND ==> x.mover.actualSide == direction
    ensures combatAction == DEFEND && direction == opponent.actualSide ==>
      x.mover.energy == SaturatingAdd(player.energy, ShieldProtection(player.attributes), U16_MAX)
    ensures x.mover.tmgId == player.tmgId && x.mover.owner == player.owner
    ensures combatAction == ATTACK ==>
      x.notices == [Notify(player.owner, if direction == opponent.actualSide then SuccessfullyAttacked else AttackMissed)]
    ensures combatAction == DEFEND ==> x.notices == [Notify(player.owner, SuccessfullyDefended)]
    ensures combatAction != ATTACK && combatAction != DEFEND ==> x.notices == []
  {
    if combatAction == ATTACK then
      var sword := SwordPower(player.attributes);
      var mover := player.(actualSide := direction);
      if mover.actualSide == opponent.actualSide then
        var damage := WrappingMul16(sword, mover.power);
        Exchange(mover, opponent.(energy := SaturatingSub(opponent.energy, damage)),
                 [Notify(mover.owner, SuccessfullyAttacked)])
      else
        Exchange(mover, opponent, [Notify(mover.owner, AttackMissed)])
    else if combatAction == DEFEND then
      var shield := ShieldProtection(player.attributes);
      var mover := player.(actualSide := direction);
      var mover := if mover.actualSide == opponent.actualSide
        then mover.(energy := SaturatingAdd(mover.energy, shield, U16_MAX))
        else mover;
      Exchange(mover, opponent, [Notify(mover.owner, SuccessfullyDefended)])
    else
      Exchange(player, opponent, [])
  }

  // ---------------------------------------------------------------------------
  // The session's operations

  /** The index of the player who moves after `turn`. */
  function NextTurn(turn: u8): (r: u8)
    ensures r <= 1
    ensures turn <= 1 ==> r != turn
  {
    (turn + 1) % 2
  }

  /** The player record `Register` appends. */
  function NewPlayer(owner: ActorId, tmgId: TamagotchiId, attributes: set<AttributeId>,
                     powerRandom: RandomHash, energyRandom: RandomHash, sideRandom: RandomHash): (p: Player)
    ensures p.owner == owner && p.tmgId == tmgId && p.attributes == attributes
    ensures 1 <= p.power <= MAX_POWER - MIN_POWER
    ensures MIN_ENERGY <= p.energy < MAX_ENERGY
    ensures p.actualSide == LEFT <==> sideRandom[0] % 2 == 0
    ensures p.combatPosition == ""
  {
    Player(owner, tmgId, GenerateEnergy(energyRandom), StoredPower(powerRandom), attributes,
           SideOf(GetTurn(sideRandom)), "")
  }

  /**
   `Battle::register`: only in `Registration`. Asks the tamagotchi for its
   owner and the store for its attributes, rolls power, energy and side, and
   appends the player; the second player starts the game with a random turn.
   The same tamagotchi may register twice.
   */
  function RegisterTamagotchi(b: Battle, tmgId: TamagotchiId, ownerReply: OwnerReply, storeReply: StoreReply,
                              powerRandom: RandomHash, energyRandom: RandomHash,
                              sideRandom: RandomHash, turnRandom: RandomHash): (r: Result<Step>)
    ensures r.Ok? <==> b.state == Registration && ownerReply.Owner? && storeReply.Attributes?
    ensures r.Ok? ==>
      var b' := r.value.battle;
      && b'.players == b.players + [NewPlayer(ownerReply.owner, tmgId, storeReply.attributes,
                                              powerRandom, energyRandom, sideRandom)]
      && (|b'.players| == 2 ==> b'.state == Moves && b'.currentTurn == GetTurn(turnRandom))
      && (|b'.players| != 2 ==> b'.state == Registration && b'.currentTurn == b.currentTurn)
      && b'.tmgStoreId == b.tmgStoreId && b'.winner == b.winner && b'.steps == b.steps
      && r.value.reply == Registered(tmgId)
      && r.value.effects == [AskOwner(tmgId), AskAttributes(b.tmgStoreId, tmgId)]
  {
    if b.state != Registration then Panic("The game has already started")
    else if ownerReply.NotOwner? then Panic("Wrong received message")
    else if storeReply.NotAttributes? then Panic("Wrong received message")
    else
      var player := NewPlayer(ownerReply.owner, tmgId, storeReply.attributes,
                              powerRandom, energyRandom, sideRandom);
      var players := b.players + [player];
      var b' := if |players| == 2
        then b.(players := players, currentTurn := GetTurn(turnRandom), state := Moves)
        else b.(players := players);
      Ok(Step(b', Registered(tmgId), [AskOwner(tmgId), AskAttributes(b.tmgStoreId, tmgId)]))
  }

  /** The conditions under which `make_move` does not panic. */
  predicate CanMove(b: Battle, sender: ActorId) {
    && b.state == Moves
    && b.currentTurn < |b.players|
    && b.players[b.currentTurn].owner == sender
    && NextTurn(b.currentTurn) < |b.players|
  }

  /**
   `Battle::make_move`: only in `Moves` and only by the owner of the player
   whose turn it is. Only the opponent's record is written back, so the
   mover's side change and any defence bonus are lost. If the opponent's
   energy is then zero the game is over; otherwise the step counter advances
   until it exceeds `MAX_STEPS_FOR_ROUND`, after which the battle waits for a
   delayed `UpdateInfo` from the program itself.
   */
  function MakeMove(b: Battle, sender: ActorId, direction: string, combatAction: string): (r: Result<Step>)
    ensures r.Ok? <==> CanMove(b, sender)
    ensures r.Ok? ==>
      var turn := b.currentTurn;
      var next := NextTurn(turn);
      var x := Resolve(b.players[turn], b.players[next], direction, combatAction);
      var b' := r.value.battle;
      && b'.tmgStoreId == b.tmgStoreId
      && (x.opponent.energy == 0 <==> r.value.reply == BattleEvent.GameIsOver)
      && (x.opponent.energy == 0 ==>
            b'.players == [] && b'.state == BattleState.GameIsOver && b'.winner == b.players[turn].tmgId
            && b'.steps == b.steps && b'.currentTurn == b.currentTurn
            && r.value.effects == x.notices)
      && (x.opponent.energy != 0 ==>
            b'.players == b.players[next := x.opponent] && b'.winner == b.winner)
      && (x.opponent.energy != 0 && b.steps <= MAX_STEPS_FOR_ROUND ==>
            b'.state == Moves && b'.steps == b.steps + 1 && b'.currentTurn == next
            && r.value.reply == MoveMade && r.value.effects == x.notices)
      && (x.opponent.energy != 0 && MAX_STEPS_FOR_ROUND < b.steps ==>
            b'.state == Waiting && b'.steps == 0 && b'.currentTurn == turn
            && r.value.reply == GoToWaitingState
            && r.value.effects == x.notices + [SendDelayedToSelf(BattleAction.UpdateInfo, GAS_AMOUNT, TIME_FOR_UPDATE)])
  {
    if b.state != Moves then Panic("The game is not in `Moves` state")
    else if |b.players| <= b.currentTurn then Panic("index out of bounds")
    else
      var turn := b.currentTurn;
      var next := NextTurn(turn);
      var player := b.players[turn];
      if player.owner != sender then Panic("You are not in the game or it is not your turn")
      else if |b.players| <= next then Panic("index out of bounds")
      else
        var x := Resolve(player, b.players[next], direction, combatAction);
        var players := b.players[next := x.opponent];
        if x.opponent.energy == 0 then
          Ok(Step(b.(players := [], state := BattleState.GameIsOver, winner := x.mover.tmgId),
                  BattleEvent.GameIsOver, x.notices))
        else if b.steps <= MAX_STEPS_FOR_ROUND then
          Ok(Step(b.(players := players, steps := b.steps + 1, currentTurn := next), MoveMade, x.notices))
        else
          Ok(Step(b.(players := players, state := Waiting, steps := 0), GoToWaitingState,
                  x.notices + [SendDelayedToSelf(BattleAction.UpdateInfo, GAS_AMOUNT, TIME_FOR_UPDATE)]))
  }

  /**
   `Battle::update_info`: only from the program itself and only in `Waiting`.
   Replaces both players' attributes with the store's replies, resumes the
   moves and draws a fresh turn.
   */
  function UpdatePlayersInfo(b: Battle, sender: ActorId, programId: ActorId,
                             firstReply: StoreReply, secondReply: StoreReply, turnRandom: RandomHash): (r: Result<Step>)
    ensures r.Ok? <==>
      sender == programId && b.state == Waiting && 2 <= |b.players|
      && firstReply.Attributes? && secondReply.Attributes?
    ensures r.Ok? ==>
      var b' := r.value.battle;
      && b'.players == b.players[0 := b.players[0].(attributes := firstReply.attributes)]
                                [1 := b.players[1].(attributes := secondReply.attributes)]
      && b'.state == Moves && b'.currentTurn == GetTurn(turnRandom)
      && b'.steps == b.steps && b'.winner == b.winner && b'.tmgStoreId == b.tmgStoreId
      && r.value.reply == InfoUpdated
      && r.value.effects == [AskAttributes(b.tmgStoreId, b.players[0].tmgId),
                             AskAttributes(b.tmgStoreId, b.players[1].tmgId)]
  {
    if sender != programId then Panic("Only the contract itself can call that action")
    else if b.state != Waiting then Panic("The contract must be in `Waiting` state")
    else if |b.players| < 1 then Panic("index out of bounds")
    else if firstReply.NotAttributes? then Panic("Wrong received message")
    else if |b.players| < 2 then Panic("index out of bounds")
    else if secondReply.NotAttributes? then Panic("Wrong received message")
    else
      var p0 := b.players[0].(attributes := firstReply.attributes);
      var p1 := b.players[1].(attributes := secondReply.attributes);
      Ok(Step(b.(players := b.players[0 := p0][1 := p1], state := Moves, currentTurn := GetTurn(turnRandom)),
              InfoUpdated,
              [AskAttributes(b.tmgStoreId, b.players[0].tmgId), AskAttributes(b.tmgStoreId, b.players[1].tmgId)]))
  }

  /**
   `Battle::reset_contract`: only in `GameIsOver`; reopens registration and
   touches nothing else, so the previous winner, step count and turn survive.
   */
  function Reset(b: Battle): (r: Result<Step>)
    ensures r.Ok? <==> b.state == BattleState.GameIsOver
    ensures r.Ok? ==>
      var b' := r.value.battle;
      && b'.state == Registration
      && b'.players == b.players && b'.winner == b.winner && b'.steps == b.steps
      && b'.currentTurn == b.currentTurn && b'.tmgStoreId == b.tmgStoreId
      && r.value.reply == RestartedContract && r.value.effects == []
  {
    if b.state != BattleState.GameIsOver then Panic("The contract must be in `GameIsOver` state")
    else Ok(Step(b.(state := Registration), RestartedContract, []))
  }
}

=== FILE: battle_program.dfy ===
/**
 The entry points of `contracts/07-tamagotchi-battle`: `init` builds the
 battle from the store address, `main` dispatches each `BattleAction` to the
 battle stored in the program (a default battle when none is stored), and
 `state` hands the stored battle out, taking it out of storage.
 */
module BattleProgram {
  import opened Prim
  import opened BattleIo

  datatype BattleInit = BattleInit(tmgStoreId: ActorId)

  /** Everything the host supplies to one `main` call. */
  datatype Host = Host(
    source: ActorId,
    programId: ActorId,
    ownerReply: OwnerReply,
    firstStoreReply: StoreReply,
    secondStoreReply: StoreReply,
    powerRandom: RandomHash,
    energyRandom: RandomHash,
    sideRandom: RandomHash,
    turnRandom: RandomHash)

  /** `init`: an empty battle in `Registration` bound to the given attribute store. */
  function Init(config: BattleInit): (b: Battle)
    ensures b.players == [] && b.state == Registration
    ensures b.currentTurn == 0 && b.steps == 0 && b.winner == DEFAULT_ACTOR
    ensures b.tmgStoreId == config.tmgStoreId
  {
    Battle([], Registration, 0, config.tmgStoreId, DEFAULT_ACTOR, 0)
  }

  /** `Battle::default()`: like `Init`, but bound to the zero address as store. */
  function DefaultBattle(): (b: Battle)
    ensures b == Init(BattleInit(DEFAULT_ACTOR))
  {
    Battle([], Registration, 0, DEFAULT_ACTOR, DEFAULT_ACTOR, 0)
  }

  /** The battle `main` works on: the stored one, or a default one if none is stored. */
  function Current(stored: Option<Battle>): (b: Battle)
    ensures stored.Some? ==> b == stored.value
    ensures stored.None? ==> b == DefaultBattle()
  {
    stored.GetOr(DefaultBattle())
  }

  /**
   `main`: routes each action to exactly one battle operation, on the stored
   battle or a default one. On success the program stores `r.value.battle`;
   on a panic the storage is left as it was.
   */
  function Handle(stored: Option<Battle>, action: BattleAction, host: Host): (r: Result<Step>)
    ensures action.Register? ==>
      r == RegisterTamagotchi(Current(stored), action.tmgId, host.ownerReply, host.firstStoreReply,
                              host.powerRandom, host.energyRandom, host.sideRandom, host.turnRandom)
    ensures action.Move? ==>
      r == MakeMove(Current(stored), host.source, action.direction, action.combatAction)
    ensures action.UpdateInfo? ==>
      r == UpdatePlayersInfo(Current(stored), host.source, host.programId,
                             host.firstStoreReply, host.secondStoreReply, host.turnRandom)
    ensures action.ResetContract? ==> r == Reset(Current(stored))
  {
    var battle := Current(stored);
    match action
    case Register(tmgId) =>
      RegisterTamagotchi(battle, tmgId, host.ownerReply, host.firstStoreReply,
                         host.powerRandom, host.energyRandom, host.sideRandom, host.turnRandom)
    case Move(direction, combatAction) => MakeMove(battle, host.source, direction, combatAction)
    case UpdateInfo => UpdatePlayersInfo(battle, host.source, host.programId,
                                         host.firstStoreReply, host.secondStoreReply, host.turnRandom)
    case ResetContract => Reset(battle)
  }

  /** The storage after `main`: the new battle on success, unchanged on a panic. */
  function StoredAfter(stored: Option<Battle>, r: Result<Step>): (s: Option<Battle>)
    ensures r.Ok? ==> s == Some(r.value.battle)
    ensures r.Panic? ==> s == stored
  {
    if r.Ok? then Some(r.value.battle) else stored
  }

  /**
   `state`: replies with the stored battle and leaves the storage empty, so the
   next `main` starts again from a default battle. Panics when nothing is stored.
   */
  function StateQuery(stored: Option<Battle>): (r: Result<(Option<Battle>, Battle)>)
    ensures r.Ok? <==> stored.Some?
    ensures r.Ok? ==> r.value.0 == None && r.value.1 == stored.value
  {
    match stored
    case Some(b) => Ok((None, b))
    case None => Panic("Unexpected error in taking state")
  }
}

=== FILE: battle_proofs.dfy ===
/**
 Properties of the battle session that span several operations: the
 whole-machine invariant on the number of players, the length of a round,
 the exact damage of an attack, and what survives a reset or a state query.
 */
module BattleProofs {
  import opened Prim
  import opened BattleIo
  import opened BattleProgram

  /** A registered player: power as `Register` stores it, and energy that is still positive. */
  predicate PlayerValid(p: Player) {
    && 1 <= p.power <= MAX_POWER - MIN_POWER
    && 1 <= p.energy < MAX_ENERGY
  }

  /**
   The whole-machine invariant: at most one player while registering (the
   second registration starts the game), exactly two while the game runs,
   none once it is over; the turn is an index of `players` and the step
   counter never exceeds the round budget plus one.
   */
  predicate Valid(b: Battle) {
    && b.currentTurn <= 1
    && b.steps <= MAX_STEPS_FOR_ROUND + 1
    && (forall i | 0 <= i < |b.players| :: PlayerValid(b.players[i]))
    && match b.state
       case Registration => |b.players| <= 1
       case Moves => |b.players| == 2
       case Waiting => |b.players| == 2 && b.steps == 0
       case GameIsOver => |b.players| == 0
  }

  lemma InitValid(config: BattleInit)
    ensures Valid(Init(config))
    ensures Valid(DefaultBattle())
  {
  }

  lemma RegisterPreservesValid(b: Battle, tmgId: TamagotchiId, ownerReply: OwnerReply, storeReply: StoreReply,
                               powerRandom: RandomHash, energyRandom: RandomHash,
                               sideRandom: RandomHash, turnRandom: RandomHash)
    requires Valid(b)
    requires b.state == Registration && ownerReply.Owner? && storeReply.Attributes?
    ensures Valid(RegisterTamagotchi(b, tmgId, ownerReply, storeReply,
                                     powerRandom, energyRandom, sideRandom, turnRandom).value.battle)
  {
    var b' := RegisterTamagotchi(b, tmgId, ownerReply, storeReply,
                                 powerRandom, energyRandom, sideRandom, turnRandom).value.battle;
    forall i | 0 <= i < |b'.players|
      ensures PlayerValid(b'.players[i])
    {
      if i < |b.players| {
        assert b'.players[i] == b.players[i];
      }
    }
  }

  lemma MakeMovePreservesValid(b: Battle, sender: ActorId, direction: string, combatAction: string)
    requires Valid(b)
    requires MakeMove(b, sender, direction, combatAction).Ok?
    ensures Valid(MakeMove(b, sender, direction, combatAction).value.battle)
  {
    var turn := b.currentTurn;
    var next := NextTurn(turn);
    var x := Resolve(b.players[turn], b.players[next], direction, combatAction);
    var b' := MakeMove(b, sender, direction, combatAction).value.battle;
    if x.opponent.energy != 0 {
      forall i | 0 <= i < |b'.players|
        ensures PlayerValid(b'.players[i])
      {
        assert PlayerValid(b.players[i]);
        if i == next {
          assert b'.players[i] == x.opponent;
          assert x.opponent.power == b.players[next].power;
        }
      }
    }
  }

  lemma UpdatePlayersInfoPreservesValid(b: Battle, sender: ActorId, programId: ActorId,
                                        firstReply: StoreReply, secondReply: StoreReply, turnRandom: RandomHash)
    requires Valid(b)
    requires UpdatePlayersInfo(b, sender, programId, firstReply, secondReply, turnRandom).Ok?
    ensures Valid(UpdatePlayersInfo(b, sender, programId, firstReply, secondReply, turnRandom).value.battle)
  {
    var b' := UpdatePlayersInfo(b, sender, programId, firstReply, secondReply, turnRandom).value.battle;
    forall i | 0 <= i < |b'.players|
      ensures PlayerValid(b'.players[i])
    {
      assert PlayerValid(b.players[i]);
      assert b'.players[i].power == b.players[i].power && b'.players[i].energy == b.players[i].energy;
    }
  }

  lemma ResetPreservesValid(b: Battle)
    requires Valid(b)
    requires Reset(b).Ok?
    ensures Valid(Reset(b).value.battle)
    ensures Reset(b).value.battle.players == []
  {
  }

  /** Every message `main` accepts keeps the invariant. */
  lemma HandlePreservesValid(stored: Option<Battle>, action: BattleAction, host: Host)
    requires stored.Some? ==> Valid(stored.value)
    ensures Valid(Current(stored))
    ensures Handle(stored, action, host).Ok? ==> Valid(Handle(stored, action, host).value.battle)
  {
    var b := Current(stored);
    InitValid(BattleInit(DEFAULT_ACTOR));
    if Handle(stored, action, host).Ok? {
      match action
      case Register(tmgId) =>
        RegisterPreservesValid(b, tmgId, host.ownerReply, host.firstStoreReply,
                               host.powerRandom, host.energyRandom, host.sideRandom, host.turnRandom);
      case Move(direction, combatAction) => MakeMovePreservesValid(b, host.source, direction, combatAction);
      case UpdateInfo =>
        UpdatePlayersInfoPreservesValid(b, host.source, host.programId,
                                        host.firstStoreReply, host.secondStoreReply, host.turnRandom);
      case ResetContract => ResetPreservesValid(b);
    }
  }

  /** The player count of each state, as the invariant fixes it. */
  lemma PlayerCount(b: Battle)
    requires Valid(b)
    ensures b.state == Registration ==> |b.players| <= 2
    ensures b.state == Moves || b.state == Waiting ==> |b.players| == 2
    ensures b.state == BattleState.GameIsOver ==> |b.players| == 0
  {
  }

  /** From a fresh battle, two registrations start the game; a third is refused. */
  lemma TwoRegistrationsStartTheGame(config: BattleInit, first: TamagotchiId, second: TamagotchiId,
                                     owner1: ActorId, owner2: ActorId,
                                     attributes1: set<AttributeId>, attributes2: set<AttributeId>,
                                     random: RandomHash, third: TamagotchiId)
    ensures
      var r1 := RegisterTamagotchi(Init(config), first, Owner(owner1), Attributes(attributes1),
                                   random, random, random, random);
      && r1.Ok? && r1.value.battle.state == Registration
      && var r2 := RegisterTamagotchi(r1.value.battle, second, Owner(owner2), Attributes(attributes2),
                                      random, random, random, random);
      && r2.Ok? && r2.value.battle.state == Moves && |r2.value.battle.players| == 2
      && r2.value.battle.currentTurn <= 1
      && r2.value.battle.players[0].tmgId == first && r2.value.battle.players[1].tmgId == second
      && RegisterTamagotchi(r2.value.battle, third, Owner(owner1), Attributes(attributes1),
                            random, random, random, random).Panic?
  {
  }

  /** In a valid battle, registration is refused as soon as two players are present. */
  lemma NoThirdPlayer(b: Battle, tmgId: TamagotchiId, ownerReply: OwnerReply, storeReply: StoreReply,
                      powerRandom: RandomHash, energyRandom: RandomHash,
                      sideRandom: RandomHash, turnRandom: RandomHash)
    requires Valid(b) && |b.players| == 2
    ensures RegisterTamagotchi(b, tmgId, ownerReply, storeReply,
                               powerRandom, energyRandom, sideRandom, turnRandom).Panic?
  {
  }

  /**
   In a valid battle the multiplication `sword * power` never wraps
   (at most 8 * 7000 = 56000), so a landed attack drains exactly that much,
   floored at zero.
   */
  lemma AttackDamageIsExact(b: Battle, sender: ActorId, direction: string)
    requires Valid(b) && CanMove(b, sender)
    requires direction == b.players[NextTurn(b.currentTurn)].actualSide
    ensures
      var mover := b.players[b.currentTurn];
      var opponent := b.players[NextTurn(b.currentTurn)];
      var damage := SwordPower(mover.attributes) * mover.power;
      && damage <= SILVER_SWORD_POWER * (MAX_POWER - MIN_POWER) < 0x1_0000
      && Resolve(mover, opponent, direction, ATTACK).opponent.energy == SaturatingSub(opponent.energy, damage)
  {
    var mover := b.players[b.currentTurn];
    assert PlayerValid(mover);
    var sword := SwordPower(mover.attributes);
    assert sword * mover.power <= SILVER_SWORD_POWER * mover.power <= SILVER_SWORD_POWER * (MAX_POWER - MIN_POWER);
  }

  /**
   Only the opponent's record is written back: after any move that does not
   end the game the mover's stored record is unchanged, so its side change
   and defence bonus are lost, and every player keeps the side it was given
   at registration.
   */
  lemma MoverRecordUnchanged(b: Battle, sender: ActorId, direction: string, combatAction: string)
    requires Valid(b)
    requires MakeMove(b, sender, direction, combatAction).Ok?
    requires MakeMove(b, sender, direction, combatAction).value.reply != BattleEvent.GameIsOver
    ensures
      var b' := MakeMove(b, sender, direction, combatAction).value.battle;
      && b'.players[b.currentTurn] == b.players[b.currentTurn]
      && |b'.players| == 2
      && b'.players[0].actualSide == b.players[0].actualSide
      && b'.players[1].actualSide == b.players[1].actualSide
  {
  }

  /** Only a landed attack can end the game: a defence or an unknown action never does. */
  lemma OnlyAttackEndsTheGame(b: Battle, sender: ActorId, direction: string, combatAction: string)
    requires Valid(b)
    requires MakeMove(b, sender, direction, combatAction).Ok?
    requires combatAction != ATTACK || direction != b.players[NextTurn(b.currentTurn)].actualSide
    ensures MakeMove(b, sender, direction, combatAction).value.reply != BattleEvent.GameIsOver
    ensures MakeMove(b, sender, direction, combatAction).value.battle.players == b.players
  {
    var next := NextTurn(b.currentTurn);
    assert PlayerValid(b.players[next]);
    assert b.players[next := b.players[next]] == b.players;
  }

  /** A move that drains the opponent to zero ends the game with the mover as winner. */
  lemma KnockoutWins(b: Battle, sender: ActorId, direction: string)
    requires CanMove(b, sender)
    requires Resolve(b.players[b.currentTurn], b.players[NextTurn(b.currentTurn)], direction, ATTACK).opponent.energy == 0
    ensures
      var r := MakeMove(b, sender, direction, ATTACK);
      && r.Ok? && r.value.reply == BattleEvent.GameIsOver
      && r.value.battle.state == BattleState.GameIsOver
      && r.value.battle.winner == b.players[b.currentTurn].tmgId
      && r.value.battle.players == []
  {
  }

  // ---------------------------------------------------------------------------
  // Rounds

  datatype MoveInput = MoveInput(sender: ActorId, direction: string, combatAction: string)

  /**
   Applies consecutive moves; the replies in order, or the first panic. A
   finished game accepts no further move, so in a run that succeeds only
   the last reply can be `GameIsOver`, and then the run ends in that state.
   */
  function RunMoves(b: Battle, moves: seq<MoveInput>): (r: Result<(Battle, seq<BattleEvent>)>)
    ensures r.Ok? ==> |r.value.1| == |moves|
    ensures r.Ok? ==> forall i | 0 <= i < |moves| - 1 :: r.value.1[i] != BattleEvent.GameIsOver
    ensures r.Ok? && |moves| > 0 && r.value.1[|moves| - 1] == BattleEvent.GameIsOver ==>
              r.value.0.state == BattleState.GameIsOver
    ensures b.state == BattleState.GameIsOver && |moves| > 0 ==> r.Panic?
    decreases |moves|
  {
    if |moves| == 0 then Ok((b, []))
    else
      match MakeMove(b, moves[0].sender, moves[0].direction, moves[0].combatAction)
      case Panic(reason) => Panic(reason)
      case Ok(step) =>
        match RunMoves(step.battle, moves[1..])
        case Panic(reason) => Panic(reason)
        case Ok(rest) => Ok((rest.0, [step.reply] + rest.1))
  }

  /**
   The step budget: in a run of moves none of which ends the game, starting
   in `Moves` with step counter `s`, the move with index `i` is answered
   `MoveMade` exactly when `s + i <= 3` and `GoToWaitingState` exactly when
   `s + i == 4`, and no more than `5 - s` moves can be made before `Waiting`.
   */
  lemma {:induction false} RoundLength(b: Battle, moves: seq<MoveInput>)
    requires b.state == Moves && b.steps <= MAX_STEPS_FOR_ROUND + 1
    requires RunMoves(b, moves).Ok?
    requires forall i | 0 <= i < |moves| :: RunMoves(b, moves).value.1[i] != BattleEvent.GameIsOver
    ensures |moves| <= MAX_STEPS_FOR_ROUND + 2 - b.steps
    ensures forall i | 0 <= i < |moves| ::
      RunMoves(b, moves).value.1[i] == MoveMade <==> b.steps + i <= MAX_STEPS_FOR_ROUND
    ensures forall i | 0 <= i < |moves| ::
      RunMoves(b, moves).value.1[i] == GoToWaitingState <==> b.steps + i == MAX_STEPS_FOR_ROUND + 1
    decreases |moves|
  {
    if |moves| > 0 {
      var step := MakeMove(b, moves[0].sender, moves[0].direction, moves[0].combatAction).value;
      var rest := RunMoves(step.battle, moves[1..]).value;
      var replies := RunMoves(b, moves).value.1;
      assert replies == [step.reply] + rest.1;
      assert step.reply == replies[0];
      if b.steps <= MAX_STEPS_FOR_ROUND {
        assert step.battle.state == Moves && step.battle.steps == b.steps + 1;
        forall i | 0 <= i < |moves| - 1
          ensures rest.1[i] != BattleEvent.GameIsOver
        {
          assert rest.1[i] == replies[i + 1];
        }
        RoundLength(step.battle, moves[1..]);
        forall i | 1 <= i < |moves|
          ensures replies[i] == rest.1[i - 1]
        {
        }
      } else {
        assert step.battle.state == Waiting;
        assert |moves| == 1;
      }
    }
  }

  /** Starting a round at step 0, the fifth consecutive move (not the fourth) enters `Waiting`. */
  lemma FifthMoveWaits(b: Battle, moves: seq<MoveInput>)
    requires b.state == Moves && b.steps == 0 && |moves| == 5
    requires RunMoves(b, moves).Ok?
    requires forall i | 0 <= i < |moves| :: RunMoves(b, moves).value.1[i] != BattleEvent.GameIsOver
    ensures RunMoves(b, moves).value.1 == [MoveMade, MoveMade, MoveMade, MoveMade, GoToWaitingState]
  {
    RoundLength(b, moves);
  }

  // ---------------------------------------------------------------------------
  // Reset and the state query

  /**
   A reset keeps the finished game's winner, step counter and turn, so a new
   game started after it inherits the old step counter.
   */
  lemma ResetThenRegisterKeepsSteps(b: Battle, tmgId: TamagotchiId, owner: ActorId,
                                    attributes: set<AttributeId>, random: RandomHash)
    requires b.state == BattleState.GameIsOver
    ensures
      var reset := Reset(b).value.battle;
      var r := RegisterTamagotchi(reset, tmgId, Owner(owner), Attributes(attributes), random, random, random, random);
      && r.Ok? && r.value.battle.steps == b.steps && r.value.battle.winner == b.winner
  {
  }

  /**
   The state query empties the storage, so the next message runs on a default
   battle: the game in progress is forgotten, registration is open again and
   the attribute store address is reset to the zero address.
   */
  lemma QueryForgetsTheBattle(b: Battle, action: BattleAction, host: Host)
    ensures StateQuery(Some(b)).Ok?
    ensures Handle(StateQuery(Some(b)).value.0, action, host) == Handle(Some(DefaultBattle()), action, host)
    ensures Current(StateQuery(Some(b)).value.0).tmgStoreId == DEFAULT_ACTOR
    ensures Current(StateQuery(Some(b)).value.0).state == Registration
  {
  }

  // ---------------------------------------------------------------------------
  // Randomness

  /** Every power in `[MIN_POWER, MAX_POWER)` is rolled by some hash, so stored power spans `[1, 7000]`. */
  lemma GeneratePowerOnto(p: u16)
    requires MIN_POWER <= p < MAX_POWER
    ensures GeneratePower(HashOf(p)) == p
    ensures StoredPower(HashOf(p)) == MAX_POWER - p
  {
  }

  /** Every energy in `[MIN_ENERGY, MAX_ENERGY)` is rolled by some hash. */
  lemma GenerateEnergyOnto(e: u16)
    requires MIN_ENERGY <= e < MAX_ENERGY
    ensures GenerateEnergy(HashOf(e)) == e
  {
  }
}

=== FILE: escrow.dfy ===
/**
 The escrow of `contracts/escrow`: a buyer deposits exactly the price, then
 confirms delivery, which releases the price to the seller. The states only
 move forward: `AwaitingPayment`, `AwaitingDelivery`, `Closed`.

 Authorization compares the address carried in the message payload with the
 buyer, not the message's sender. The value attached to the message is a
 parameter.
 */
module EscrowIo {
  import opened Prim

  datatype EscrowState = AwaitingPayment | AwaitingDelivery | Closed

  datatype Escrow = Escrow(seller: ActorId, buyer: ActorId, price: u128, state: EscrowState)

  datatype EscrowAction = Deposit(address: ActorId) | ConfirmDelivery(address: ActorId)

  datatype EscrowEvent =
    | FundsDeposited
    | DeliveryConfirmed
    | NotEnoughtFounds(attached: u128, expected: u128)
    | FundsPassed(amount: u128)

  /** A value transfer the escrow makes: `amount` to `dest` with the given text. */
  datatype Payment = Payment(dest: ActorId, memo: string, amount: u128)

  datatype Step = Step(escrow: Escrow, reply: EscrowEvent, payments: seq<Payment>)

  /** How far along the deal is; a successful step always raises it by one. */
  function Progress(s: EscrowState): (n: nat)
    ensures n <= 2
  {
    match s
    case AwaitingPayment => 0
    case AwaitingDelivery => 1
    case Closed => 2
  }

  /**
   `Escrow::deposit`: in `AwaitingPayment`, with the payload naming the buyer
   (whoever sends it) and exactly the price attached; the escrow then awaits
   delivery.
   */
  function DepositFunds(e: Escrow, userAddress: ActorId, value: u128): (r: Result<Step>)
    ensures r.Ok? <==> e.state == AwaitingPayment && userAddress == e.buyer && value == e.price
    ensures r.Ok? ==>
      && r.value.escrow.state == AwaitingDelivery
      && r.value.escrow.seller == e.seller && r.value.escrow.buyer == e.buyer && r.value.escrow.price == e.price
      && r.value.reply == FundsDeposited && r.value.payments == []
  {
    if e.state != AwaitingPayment then Panic("State must be `AwaitingPayment")
    else if userAddress != e.buyer then Panic("The message sender must be a buyer")
    else if value != e.price then Panic("The attached value must be equal to set price")
    else Ok(Step(e.(state := AwaitingDelivery), FundsDeposited, []))
  }

  /**
   `Escrow::confirm_delivery`: with the payload naming the buyer (whoever
   sends it), in `AwaitingDelivery`; pays the price to the seller and closes
   the escrow.
   */
  function ConfirmDeliveryOf(e: Escrow, userAddress: ActorId): (r: Result<Step>)
    ensures r.Ok? <==> userAddress == e.buyer && e.state == AwaitingDelivery
    ensures r.Ok? ==>
      && r.value.escrow.state == Closed
      && r.value.escrow.seller == e.seller && r.value.escrow.buyer == e.buyer && r.value.escrow.price == e.price
      && r.value.reply == DeliveryConfirmed
      && r.value.payments == [Payment(e.seller, "Buyer payment", e.price)]
  {
    if userAddress != e.buyer then Panic("The message sender must be a buyer")
    else if e.state != AwaitingDelivery then Panic("State must be `AwaitingDelivery`")
    else Ok(Step(e.(state := Closed), DeliveryConfirmed, [Payment(e.seller, "Buyer payment", e.price)]))
  }
}

/**
 The entry points of the escrow program (`contracts/escrow/src/contract.rs`).
 `handle` and `state` rely on `init` having run: they read the stored escrow
 without checking for it, so they take an `Escrow`, not an optional one.
 */
module EscrowContract {
  import opened Prim
  import opened EscrowIo

  datatype InitEscrow = InitEscrow(seller: ActorId, buyer: ActorId, price: u128)

  /** `init`: the configured deal, awaiting payment. */
  function Init(config: InitEscrow): (e: Escrow)
    ensures e.seller == config.seller && e.buyer == config.buyer && e.price == config.price
    ensures e.state == AwaitingPayment && Progress(e.state) == 0
  {
    Escrow(config.seller, config.buyer, config.price, AwaitingPayment)
  }

  /** `handle`: each action runs exactly one escrow operation with the address it carries. */
  function Handle(e: Escrow, action: EscrowAction, value: u128): (r: Result<Step>)
    ensures action.Deposit? ==> r == DepositFunds(e, action.address, value)
    ensures action.ConfirmDelivery? ==> r == ConfirmDeliveryOf(e, action.address)
    ensures r.Ok? ==> Progress(r.value.escrow.state) == Progress(e.state) + 1
    ensures r.Ok? ==> r.value.escrow == e.(state := r.value.escrow.state)
  {
    match action
    case Deposit(address) => DepositFunds(e, address, value)
    case ConfirmDelivery(address) => ConfirmDeliveryOf(e, address)
  }

  /** `state`: replies with the escrow and changes nothing. */
  function StateQuery(e: Escrow): (r: (Escrow, Escrow))
    ensures r.0 == e && r.1 == e
  {
    (e, e)
  }

  /** The escrow after a sequence of messages, each with its attached value; a panic leaves it as it was. */
  function Run(e: Escrow, messages: seq<(EscrowAction, u128)>): (r: Escrow)
    ensures r.seller == e.seller && r.buyer == e.buyer && r.price == e.price
    ensures Progress(e.state) <= Progress(r.state)
    decreases |messages|
  {
    if |messages| == 0 then e
    else
      var r := Handle(e, messages[0].0, messages[0].1);
      Run(if r.Ok? then r.value.escrow else e, messages[1..])
  }

  /** `Closed` is terminal: every later message panics and nothing changes. */
  lemma ClosedIsTerminal(e: Escrow, messages: seq<(EscrowAction, u128)>)
    requires e.state == Closed
    ensures forall i | 0 <= i < |messages| :: Handle(e, messages[i].0, messages[i].1).Panic?
    ensures Run(e, messages) == e
  {
  }

  /**
   The happy path: the buyer deposits exactly the price and confirms; the
   seller is paid exactly the price, once, and the escrow is closed. A
   second deposit or confirmation then fails.
   */
  lemma DealCompletes(config: InitEscrow)
    ensures
      var e0 := Init(config);
      var r1 := Handle(e0, Deposit(config.buyer), config.price);
      && r1.Ok?
      && var r2 := Handle(r1.value.escrow, ConfirmDelivery(config.buyer), 0);
      && r2.Ok? && r2.value.escrow.state == Closed
      && r2.value.payments == [Payment(config.seller, "Buyer payment", config.price)]
      && Handle(r1.value.escrow, Deposit(config.buyer), config.price).Panic?
      && Handle(r2.value.escrow, ConfirmDelivery(config.buyer), 0).Panic?
  {
  }

  /** A wrong amount or a deposit naming anyone but the buyer is refused. */
  lemma DepositRefusals(config: InitEscrow, other: ActorId, value: u128)
    requires other != config.buyer && value != config.price
    ensures Handle(Init(config), Deposit(config.buyer), value).Panic?
    ensures Handle(Init(config), Deposit(other), config.price).Panic?
    ensures Handle(Init(config), ConfirmDelivery(config.buyer), 0).Panic?
  {
  }

  /**
   Every payment the escrow ever makes goes to the seller and is the price,
   and at most one is made over any sequence of messages.
   */
  function Payments(e: Escrow, messages: seq<(EscrowAction, u128)>): (ps: seq<Payment>)
    ensures |ps| <= (if e.state == Closed then 0 else 1)
    ensures forall i | 0 <= i < |ps| :: ps[i].dest == e.seller && ps[i].amount == e.price
    decreases |messages|
  {
    if |messages| == 0 then []
    else
      var r := Handle(e, messages[0].0, messages[0].1);
      if r.Ok? then r.value.payments + Payments(r.value.escrow, messages[1..])
      else Payments(e, messages[1..])
  }
}

=== FILE: escrow_factory.dfy ===
/**
 The registry of `contracts/escrow-factory`: it creates escrow programs,
 numbers them 1, 2, 3, ... with a saturating `u64` counter, and forwards
 deposits and confirmations to them on behalf of the caller.

 The address of a newly created program and the outcome of the forwarded
 call are parameters.
 */
module EscrowFactoryIo {
  import opened Prim
  import EscrowIo
  import EscrowContract

  type EscrowId = u64

  datatype EscrowFactory = EscrowFactory(
    escrowNumber: EscrowId,
    idToAddress: map<EscrowId, ActorId>,
    escrowCodeId: CodeId)

  datatype FactoryEvent =
    | EscrowCreated(escrowId: EscrowId, escrowAddress: ActorId)
    | Deposited(escrowId: EscrowId)
    | DeliveryConfirmed(escrowId: EscrowId)

  /** A message the factory sends besides its reply. */
  datatype Effect =
    | CreateProgram(codeId: CodeId, init: EscrowContract.InitEscrow)
    | Forward(dest: ActorId, action: EscrowIo.EscrowAction, value: u128)

  datatype Step = Step(factory: EscrowFactory, reply: FactoryEvent, effects: seq<Effect>)

  /** Whether the created program answered its init, or the forwarded call got a decodable reply. */
  datatype Outcome = Succeeded | Failed

  /**
   `EscrowFactory::create_escrow`: creates an escrow for the deal, then
   increments the counter and registers the new address under it.
   */
  function CreateEscrow(f: EscrowFactory, seller: ActorId, buyer: ActorId, price: u128,
                        created: Outcome, address: ActorId): (r: Result<Step>)
    ensures r.Ok? <==> created.Succeeded?
    ensures r.Ok? ==>
      var id := NextId(f.escrowNumber);
      && r.value.factory.escrowNumber == id
      && r.value.factory.idToAddress == f.idToAddress[id := address]
      && r.value.factory.escrowCodeId == f.escrowCodeId
      && r.value.reply == EscrowCreated(id, address)
      && r.value.effects == [CreateProgram(f.escrowCodeId, EscrowContract.InitEscrow(seller, buyer, price))]
  {
    if created.Failed? then Panic("Program was not initialized")
    else
      var id := NextId(f.escrowNumber);
      Ok(Step(f.(escrowNumber := id, idToAddress := f.idToAddress[id := address]),
              EscrowCreated(id, address),
              [CreateProgram(f.escrowCodeId, EscrowContract.InitEscrow(seller, buyer, price))]))
  }

  /** `EscrowFactory::get_escrow_address`: panics for an id never registered. */
  function GetEscrowAddress(f: EscrowFactory, escrowId: EscrowId): (r: Result<ActorId>)
    ensures r.Ok? <==> escrowId in f.idToAddress
    ensures r.Ok? ==> r.value == f.idToAddress[escrowId]
  {
    if escrowId in f.idToAddress then Ok(f.idToAddress[escrowId])
    else Panic("The escrow with indicated id does not exist")
  }

  /**
   `EscrowFactory::deposit` and `confirm_delivery` (they differ only in the
   action forwarded): look up the escrow, forward the action naming the
   caller, with the caller's attached value, and echo the id. The registry
   is not changed.
   */
  function ForwardToEscrow(f: EscrowFactory, escrowId: EscrowId, action: EscrowIo.EscrowAction,
                           value: u128, reply: Outcome): (r: Result<Step>)
    ensures r.Ok? <==> escrowId in f.idToAddress && reply.Succeeded?
    ensures r.Ok? ==>
      && r.value.factory == f
      && r.value.effects == [Forward(f.idToAddress[escrowId], action, value)]
      && r.value.reply == (if action.Deposit? then Deposited(escrowId) else DeliveryConfirmed(escrowId))
  {
    match GetEscrowAddress(f, escrowId)
    case Panic(reason) => Panic(reason)
    case Ok(address) =>
      if reply.Failed? then Panic("Unable to decode EscrowEvent")
      else
        Ok(Step(f, if action.Deposit? then Deposited(escrowId) else DeliveryConfirmed(escrowId),
                [Forward(address, action, value)]))
  }

  /** `EscrowFactory::deposit`: forwards `Deposit(source)` with the caller's value. */
  function Deposit(f: EscrowFactory, source: ActorId, escrowId: EscrowId, value: u128, reply: Outcome): (r: Result<Step>)
    ensures r.Ok? <==> escrowId in f.idToAddress && reply.Succeeded?
    ensures r.Ok? ==> r.value.factory == f && r.value.reply == Deposited(escrowId)
    ensures r.Ok? ==> r.value.effects == [Forward(f.idToAddress[escrowId], EscrowIo.Deposit(source), value)]
  {
    ForwardToEscrow(f, escrowId, EscrowIo.Deposit(source), value, reply)
  }

  /** `EscrowFactory::confirm_delivery`: forwards `ConfirmDelivery(source)` with the caller's value. */
  function ConfirmDelivery(f: EscrowFactory, source: ActorId, escrowId: EscrowId, value: u128, reply: Outcome): (r: Result<Step>)
    ensures r.Ok? <==> escrowId in f.idToAddress && reply.Succeeded?
    ensures r.Ok? ==> r.value.factory == f && r.value.reply == DeliveryConfirmed(escrowId)
    ensures r.Ok? ==> r.value.effects == [Forward(f.idToAddress[escrowId], EscrowIo.ConfirmDelivery(source), value)]
  {
    ForwardToEscrow(f, escrowId, EscrowIo.ConfirmDelivery(source), value, reply)
  }

  /** `EscrowFactory::default()` with the given code: no escrows yet. */
  function Empty(codeId: CodeId): (f: EscrowFactory)
    ensures f.escrowNumber == 0 && f.idToAddress == map[] && f.escrowCodeId == codeId
  {
    EscrowFactory(0, map[], codeId)
  }

  /** Every registered id lies in `1 ..= escrowNumber`. */
  predicate IdsIssued(f: EscrowFactory) {
    forall id | id in f.idToAddress :: 1 <= id <= f.escrowNumber
  }

  /**
   Creation keeps ids within the counter, and until the counter saturates a
   new escrow gets an id no other escrow has, so no entry is overwritten.
   */
  lemma CreateIssuesFreshId(f: EscrowFactory, seller: ActorId, buyer: ActorId, price: u128, address: ActorId)
    requires IdsIssued(f)
    ensures
      var r := CreateEscrow(f, seller, buyer, price, Succeeded, address);
      && r.Ok? && IdsIssued(r.value.factory)
      && (f.escrowNumber < U64_MAX ==>
            f.escrowNumber + 1 !in f.idToAddress
            && r.value.factory.idToAddress.Keys == f.idToAddress.Keys + {f.escrowNumber + 1}
            && forall id | id in f.idToAddress :: r.value.factory.idToAddress[id] == f.idToAddress[id])
  {
  }

  /**
   The registry after creating escrows at the given addresses, in order:
   the counter advances by one per escrow until it saturates.
   */
  function CreateAll(f: EscrowFactory, addresses: seq<ActorId>): (r: EscrowFactory)
    ensures r.escrowCodeId == f.escrowCodeId
    ensures r.escrowNumber == if f.escrowNumber + |addresses| <= U64_MAX then f.escrowNumber + |addresses| else U64_MAX
    ensures |addresses| > 0 ==> addresses[|addresses| - 1] in r.idToAddress.Values
    decreases |addresses|
  {
    if |addresses| == 0 then f
    else
      var step := CreateEscrow(f, DEFAULT_ACTOR, DEFAULT_ACTOR, 0, Succeeded, addresses[0]);
      assert step.value.factory.idToAddress[NextId(f.escrowNumber)] == addresses[0];
      assert |addresses| > 1 ==> addresses[1..][|addresses| - 2] == addresses[|addresses| - 1];
      CreateAll(step.value.factory, addresses[1..])
  }

  /**
   Creating escrows at addresses `a_1, ..., a_n` while the counter stays
   below the `u64` limit gives them the ids `c + 1, ..., c + n` in creation
   order (`c` the counter before), and keeps every earlier entry.
   */
  lemma {:induction false} IdsInCreationOrder(f: EscrowFactory, addresses: seq<ActorId>)
    requires IdsIssued(f)
    requires f.escrowNumber + |addresses| <= U64_MAX
    ensures IdsIssued(CreateAll(f, addresses))
    ensures CreateAll(f, addresses).escrowNumber == f.escrowNumber + |addresses|
    ensures forall id: EscrowId | f.escrowNumber < id <= f.escrowNumber + |addresses| ::
              && id in CreateAll(f, addresses).idToAddress
              && CreateAll(f, addresses).idToAddress[id] == addresses[id - f.escrowNumber - 1]
    ensures forall id | id in f.idToAddress ::
              && id in CreateAll(f, addresses).idToAddress
              && CreateAll(f, addresses).idToAddress[id] == f.idToAddress[id]
    decreases |addresses|
  {
    if |addresses| > 0 {
      var step := CreateEscrow(f, DEFAULT_ACTOR, DEFAULT_ACTOR, 0, Succeeded, addresses[0]);
      var f1 := step.value.factory;
      CreateIssuesFreshId(f, DEFAULT_ACTOR, DEFAULT_ACTOR, 0, addresses[0]);
      IdsInCreationOrder(f1, addresses[1..]);
      var last := CreateAll(f, addresses);
      assert last == CreateAll(f1, addresses[1..]);
      forall id: EscrowId | f.escrowNumber < id <= f.escrowNumber + |addresses|
        ensures id in last.idToAddress && last.idToAddress[id] == addresses[id - f.escrowNumber - 1]
      {
        if id > f1.escrowNumber {
          assert addresses[1..][id - f1.escrowNumber - 1] == addresses[id - f.escrowNumber - 1];
        }
      }
    }
  }

  /** With the counter saturated, a further creation reuses the last id and replaces its escrow. */
  lemma SaturatedCounterOverwrites(f: EscrowFactory, address: ActorId)
    requires f.escrowNumber == U64_MAX
    ensures
      var r := CreateEscrow(f, DEFAULT_ACTOR, DEFAULT_ACTOR, 0, Succeeded, address);
      && r.value.reply == EscrowCreated(U64_MAX, address)
      && r.value.factory.idToAddress[U64_MAX] == address
  {
  }

  /**
   A deposit through the factory is the escrow's own deposit: the forwarded
   action names the factory's caller and carries the caller's value, so the
   escrow accepts it exactly when the caller is its buyer and the value is
   its price.
   */
  lemma ForwardedDepositIsDirectDeposit(f: EscrowFactory, source: ActorId, escrowId: EscrowId,
                                        value: u128, e: EscrowIo.Escrow)
    requires escrowId in f.idToAddress
    ensures
      var fwd := Deposit(f, source, escrowId, value, Succeeded).value.effects[0];
      && EscrowContract.Handle(e, fwd.action, fwd.value) == EscrowIo.DepositFunds(e, source, value)
      && (EscrowContract.Handle(e, fwd.action, fwd.value).Ok? <==>
            e.state == EscrowIo.AwaitingPayment && source == e.buyer && value == e.price)
  {
  }

  /**
   A confirmation through the factory is the escrow's own confirmation: the
   forwarded action names the factory's caller, so the escrow releases the
   price to the seller exactly when the caller is its buyer and the deal
   awaits delivery.
   */
  lemma ForwardedConfirmIsDirectConfirm(f: EscrowFactory, source: ActorId, escrowId: EscrowId,
                                        value: u128, e: EscrowIo.Escrow)
    requires escrowId in f.idToAddress
    ensures
      var fwd := ConfirmDelivery(f, source, escrowId, value, Succeeded).value.effects[0];
      && EscrowContract.Handle(e, fwd.action, fwd.value) == EscrowIo.ConfirmDeliveryOf(e, source)
      && (EscrowContract.Handle(e, fwd.action, fwd.value).Ok? <==>
            e.state == EscrowIo.AwaitingDelivery && source == e.buyer)
  {
  }
}

=== FILE: pet_common.dfy ===
/**
 The tamagotchi record of the auto variant (`contracts/05-tamagotchi-auto`)
 and the message arms it shares, line for line, with the army variant
 (`contracts/06-tamagotchi-army/tamagotchi-utils`): naming, age, the three
 care actions, ownership transfer and approval, and the two fire-and-forget
 calls to the fungible-token program and the attribute store.

 The sender, block height and block timestamp are parameters. The replies of
 the token program and the store are awaited but ignored by the source, so
 they do not appear at all; the calls are returned as effects.
 */
module PetCommon {
  import opened Prim
  import opened PetStats
  import opened PetIo

  datatype Pet = Pet(
    name: string,
    dateOfBirth: u64,
    owner: ActorId,
    vitals: Vitals,
    approvedAccount: Option<ActorId>,
    ftContractId: Option<ActorId>,
    transactionId: TransactionId,
    approveTransaction: Option<(TransactionId, ActorId, u128)>)

  /** The values the host supplies to one message. */
  datatype Clock = Clock(source: ActorId, blockHeight: u32, blockTimestamp: u64)

  /** What a delayed message sent from a gas reservation carries. */
  datatype Payload = Command(action: TmgAction) | Notice(event: TmgEvent)

  /** A message the program sends besides its reply. */
  datatype Effect =
    | ApproveOnToken(ftContract: ActorId, transactionId: TransactionId, account: ActorId, amount: u128)
    | BuyFromStore(store: ActorId, attributeId: AttributeId)
    | DelayedFromReservation(reservation: ReservationId, dest: ActorId, payload: Payload, delay: u32)

  datatype PetStep = PetStep(pet: Pet, reply: PetReply, effects: seq<Effect>)

  /** `init`: full stats stamped with the current block, owned by the sender, nothing approved. */
  function InitPet(name: string, clock: Clock): (p: Pet)
    ensures p.name == name && p.owner == clock.source && p.dateOfBirth == clock.blockTimestamp
    ensures forall need: Need ::
              Level(p.vitals, need) == MAX_STAT_VALUE && LastBlock(p.vitals, need) == clock.blockHeight
    ensures p.approvedAccount == None && p.ftContractId == None
    ensures p.transactionId == 0 && p.approveTransaction == None
  {
    Pet(name, clock.blockTimestamp, clock.source, Uniform(MAX_STAT_VALUE, clock.blockHeight), None, None, 0, None)
  }

  /** May `sender` transfer the pet: it is the owner or the approved account. */
  predicate MayTransfer(p: Pet, sender: ActorId) {
    sender == p.owner || Some(sender) == p.approvedAccount
  }

  /** The stat a care action refills. */
  function CaredNeed(action: TmgAction): (need: Need)
    requires action.Feed? || action.Entertain? || action.Sleep?
  {
    match action
    case Feed => Hunger
    case Entertain => Boredom
    case Sleep => Energy
  }

  /** The care arms (`Feed`, `Entertain`, `Sleep`): `fill_stat_and_reply` on that arm's stat. */
  function Care(p: Pet, need: Need, now: u32): (r: PetStep)
    ensures r.pet == p.(vitals := r.pet.vitals) && r.effects == []
    ensures r.reply.Decimal? && 1 <= r.reply.n <= MAX_STAT_VALUE
    ensures Level(r.pet.vitals, need) == r.reply.n && LastBlock(r.pet.vitals, need) == now
    ensures forall other: Need | other != need ::
              Level(r.pet.vitals, other) == Level(p.vitals, other)
              && LastBlock(r.pet.vitals, other) == LastBlock(p.vitals, other)
  {
    var (vitals, level) := FillNeed(OffsetByOne, p.vitals, need, now);
    PetStep(p.(vitals := vitals), Decimal(level), [])
  }

  /**
   The arms of `main` common to the auto and army variants. The two actions
   only the army variant knows, `CheckState` and `ReserveGas`, fail to decode
   here. Every arm either panics or leaves all fields but the one it names
   as they were.
   */
  function HandleCommon(p: Pet, action: TmgAction, clock: Clock): (r: Result<PetStep>)
    ensures r.Panic? <==>
      || action.CheckState? || action.ReserveGas?
      || (action.Transfer? && !MayTransfer(p, clock.source))
      || ((action.Approve? || action.RevokeApproval?) && clock.source != p.owner)
      || (action.ApproveTokens? && p.ftContractId.None?)
    ensures action.Name? ==> r == Ok(PetStep(p, Text(p.name), []))
    ensures action.Age? ==>
      r == Ok(PetStep(p, Decimal(WrappingSub64(clock.blockTimestamp, p.dateOfBirth)), []))
    ensures (action.Feed? || action.Entertain? || action.Sleep?) ==>
      r == Ok(Care(p, CaredNeed(action), clock.blockHeight))
    ensures action.Transfer? && r.Ok? ==>
      r.value == PetStep(p.(owner := action.newOwner), Event(Transferred(action.newOwner)), [])
    ensures action.Approve? && r.Ok? ==>
      r.value == PetStep(p.(approvedAccount := Some(action.account)), Event(Approved(action.account)), [])
    ensures action.RevokeApproval? && r.Ok? ==>
      r.value == PetStep(p.(approvedAccount := None), Event(ApprovalRevoked), [])
    ensures action.SetFTokenContract? ==>
      r == Ok(PetStep(p.(ftContractId := Some(action.contract)), Event(FTokenContractSet), []))
    ensures action.ApproveTokens? && r.Ok? ==>
      r.value == PetStep(p, Event(TokensApproved(action.account, action.amount)),
                         [ApproveOnToken(p.ftContractId.value, p.transactionId, action.account, action.amount)])
    ensures action.BuyAttribute? ==>
      r == Ok(PetStep(p, Event(AttributeBought(action.attributeId)),
                      [BuyFromStore(action.storeId, action.attributeId)]))
  {
    match action
    case Name => Ok(PetStep(p, Text(p.name), []))
    case Age => Ok(PetStep(p, Decimal(WrappingSub64(clock.blockTimestamp, p.dateOfBirth)), []))
    case Feed => Ok(Care(p, Hunger, clock.blockHeight))
    case Entertain => Ok(Care(p, Boredom, clock.blockHeight))
    case Sleep => Ok(Care(p, Energy, clock.blockHeight))
    case Transfer(newOwner) =>
      if MayTransfer(p, clock.source) then
        Ok(PetStep(p.(owner := newOwner), Event(Transferred(newOwner)), []))
      else Panic("You don't have permission to do this action")
    case Approve(account) =>
      if clock.source == p.owner then
        Ok(PetStep(p.(approvedAccount := Some(account)), Event(Approved(account)), []))
      else Panic("You don't have permission to do this action")
    case RevokeApproval =>
      if clock.source == p.owner then
        Ok(PetStep(p.(approvedAccount := None), Event(ApprovalRevoked), []))
      else Panic("You don't have permission to do this action")
    case SetFTokenContract(contract) =>
      Ok(PetStep(p.(ftContractId := Some(contract)), Event(FTokenContractSet), []))
    case ApproveTokens(account, amount) =>
      var ft :- Expect(p.ftContractId, "called `Option::unwrap()` on a `None` value");
      Ok(PetStep(p, Event(TokensApproved(account, amount)),
                 [ApproveOnToken(ft, p.transactionId, account, amount)]))
    case BuyAttribute(storeId, attributeId) =>
      Ok(PetStep(p, Event(AttributeBought(attributeId)), [BuyFromStore(storeId, attributeId)]))
    case CheckState => Panic("Error loading TmgAction")
    case ReserveGas(_, _) => Panic("Error loading TmgAction")
  }

  /** Every stat lies in `1..=10001`: the range decay and refills keep. */
  predicate StatsInRange(v: Vitals) {
    forall need: Need :: 1 <= Level(v, need) <= MAX_STAT_VALUE + 1
  }

  /** `init` starts in range, and every message keeps the stats in range. */
  lemma HandleKeepsStatsInRange(p: Pet, action: TmgAction, clock: Clock)
    requires StatsInRange(p.vitals)
    ensures StatsInRange(InitPet(p.name, clock).vitals)
    ensures var r := HandleCommon(p, action, clock); r.Ok? ==> StatsInRange(r.value.pet.vitals)
  {
    var r := HandleCommon(p, action, clock);
    if r.Ok? && (action.Feed? || action.Entertain? || action.Sleep?) {
      var need := CaredNeed(action);
      forall other: Need ensures 1 <= Level(r.value.pet.vitals, other) <= MAX_STAT_VALUE + 1 {
        if other != need {
          assert Level(r.value.pet.vitals, other) == Level(p.vitals, other);
        }
      }
    }
  }

  /**
   A transfer does not clear the approval: the account approved by the old
   owner can still take the pet back from the new owner.
   */
  lemma ApprovalSurvivesTransfer(p: Pet, approved: ActorId, newOwner: ActorId, clock: Clock)
    requires p.approvedAccount == Some(approved) && clock.source == p.owner
    ensures var r := HandleCommon(p, Transfer(newOwner), clock);
            && r.Ok? && r.value.pet.owner == newOwner
            && HandleCommon(r.value.pet, Transfer(approved), clock.(source := approved)).Ok?
  {
  }

  /**
   Ownership decides approval: after a transfer the old owner (if it is not
   the new owner and not approved) can neither transfer, approve nor revoke.
   */
  lemma OldOwnerLosesControl(p: Pet, newOwner: ActorId, clock: Clock, account: ActorId)
    requires clock.source == p.owner && newOwner != p.owner && p.approvedAccount != Some(p.owner)
    ensures var r := HandleCommon(p, Transfer(newOwner), clock);
            && r.Ok?
            && HandleCommon(r.value.pet, Transfer(clock.source), clock).Panic?
            && HandleCommon(r.value.pet, Approve(account), clock).Panic?
            && HandleCommon(r.value.pet, RevokeApproval, clock).Panic?
  {
  }

  /** Revoking removes the approved account's right to transfer. */
  lemma RevokeEndsApproval(p: Pet, approved: ActorId, newOwner: ActorId, clock: Clock)
    requires clock.source == p.owner && approved != p.owner
    ensures var a := HandleCommon(p, Approve(approved), clock);
            && a.Ok? && HandleCommon(a.value.pet, Transfer(newOwner), clock.(source := approved)).Ok?
            && var v := HandleCommon(a.value.pet, RevokeApproval, clock);
            && v.Ok? && HandleCommon(v.value.pet, Transfer(newOwner), clock.(source := approved)).Panic?
  {
  }
}

=== FILE: pet_stats.dfy ===
/**
 The three vital stats every tamagotchi variant keeps — how fed, entertained
 and rested it is — and the arithmetic that decays them with the block
 height and refills them on a care action.

 A stat is a `u32` between 1 and 10000 (10001 right after a refresh in the
 auto and army variants) and remembers the block at which it was last set.
 Its current value is 10000 minus the blocks elapsed since then times the
 stat's decay rate. The block arithmetic wraps around, as the programs are
 modelled as a release build without overflow checks.
 */
module PetStats {
  import opened Prim

  const MAX_STAT_VALUE: u32 := 10_000

  const HUNGER_PER_BLOCK: u32 := 1
  const BOREDOM_PER_BLOCK: u32 := 2
  const ENERGY_PER_BLOCK: u32 := 2

  const FILL_PER_FEED: u32 := 1000
  const FILL_PER_ENTERTAINMENT: u32 := 1000
  const FILL_PER_SLEEP: u32 := 1000

  /** The three stats, named after what lowers them. */
  datatype Need = Hunger | Boredom | Energy

  /** How much a stat loses per elapsed block. */
  function WastedPerBlock(need: Need): (r: u32)
    ensures 1 <= r <= 2
  {
    match need
    case Hunger => HUNGER_PER_BLOCK
    case Boredom => BOREDOM_PER_BLOCK
    case Energy => ENERGY_PER_BLOCK
  }

  /** How much the matching care action (feed, entertain, sleep) adds. */
  function FillPerAction(need: Need): (r: u32)
    ensures r == 1000
  {
    match need
    case Hunger => FILL_PER_FEED
    case Boredom => FILL_PER_ENTERTAINMENT
    case Energy => FILL_PER_SLEEP
  }

  /** Each stat with the block height at which it was last written. */
  datatype Vitals = Vitals(
    fed: u32, fedBlock: u32,
    entertained: u32, entertainedBlock: u32,
    slept: u32, sleptBlock: u32)

  /** The stored value of a stat. */
  function Level(v: Vitals, need: Need): u32 {
    match need
    case Hunger => v.fed
    case Boredom => v.entertained
    case Energy => v.slept
  }

  /** The block at which a stat was last written. */
  function LastBlock(v: Vitals, need: Need): u32 {
    match need
    case Hunger => v.fedBlock
    case Boredom => v.entertainedBlock
    case Energy => v.sleptBlock
  }

  /** `v` with one stat and its block overwritten; the other two stats are untouched. */
  function WithLevel(v: Vitals, need: Need, level: u32, block: u32): (w: Vitals)
    ensures Level(w, need) == level && LastBlock(w, need) == block
    ensures forall other: Need | other != need ::
              Level(w, other) == Level(v, other) && LastBlock(w, other) == LastBlock(v, other)
  {
    match need
    case Hunger => v.(fed := level, fedBlock := block)
    case Boredom => v.(entertained := level, entertainedBlock := block)
    case Energy => v.(slept := level, sleptBlock := block)
  }

  /** All three stats at `level`, last written at `block`. */
  function Uniform(level: u32, block: u32): (v: Vitals)
    ensures forall need: Need :: Level(v, need) == level && LastBlock(v, need) == block
  {
    Vitals(level, block, level, block, level, block)
  }

  /** `(now - statBlock) * wasted` in release-mode `u32` arithmetic. */
  function StatLost(now: u32, statBlock: u32, wasted: u32): (r: u32)
    ensures statBlock <= now && (now - statBlock) * wasted < 0x1_0000_0000 ==> r == (now - statBlock) * wasted
  {
    WrappingMul32(WrappingSub32(now, statBlock), wasted)
  }

  /**
   `update_stat` of the auto and army variants:
   `10000.saturating_sub(lost).saturating_add(1)`. One more than the
   remaining value, so a stat refreshed in the current block reads 10001.
   */
  function UpdateStat(now: u32, statBlock: u32, wasted: u32): (r: u32)
    ensures 1 <= r <= MAX_STAT_VALUE + 1
    ensures r == 1 <==> MAX_STAT_VALUE <= StatLost(now, statBlock, wasted)
    ensures statBlock == now ==> r == MAX_STAT_VALUE + 1
    ensures statBlock <= now && (now - statBlock) * wasted <= MAX_STAT_VALUE ==>
              r == MAX_STAT_VALUE + 1 - (now - statBlock) * wasted
    ensures statBlock <= now && MAX_STAT_VALUE <= (now - statBlock) * wasted < 0x1_0000_0000 ==> r == 1
  {
    var remaining := SaturatingSub(MAX_STAT_VALUE, StatLost(now, statBlock, wasted));
    SaturatingAdd(remaining, 1, 0xFFFF_FFFF)
  }

  /**
   `calculate_current_stat_value` of the NFT variant:
   `10000.saturating_sub(lost)`, clamped to `1..=10000`.
   */
  function CurrentStatValue(now: u32, statBlock: u32, wasted: u32): (r: u32)
    ensures 1 <= r <= MAX_STAT_VALUE
    ensures r == 1 <==> MAX_STAT_VALUE - 1 <= StatLost(now, statBlock, wasted)
    ensures statBlock == now ==> r == MAX_STAT_VALUE
    ensures statBlock <= now && (now - statBlock) * wasted < MAX_STAT_VALUE ==>
              r == MAX_STAT_VALUE - (now - statBlock) * wasted
  {
    Clamp(SaturatingSub(MAX_STAT_VALUE, StatLost(now, statBlock, wasted)))
  }

  /** `x.max(1).min(10000)` */
  function Clamp(x: u32): (r: u32)
    ensures 1 <= r <= MAX_STAT_VALUE
    ensures 1 <= x <= MAX_STAT_VALUE ==> r == x
    ensures x == 0 ==> r == 1
    ensures MAX_STAT_VALUE < x ==> r == MAX_STAT_VALUE
  {
    if x < 1 then 1 else if x > MAX_STAT_VALUE then MAX_STAT_VALUE else x
  }

  /**
   `fill_stat_value`: adds the fill in release-mode `u32` arithmetic and
   clamps the sum to `1..=10000`.
   */
  function FillStatValue(stat: u32, fill: u32): (r: u32)
    ensures 1 <= r <= MAX_STAT_VALUE
    ensures stat + fill < 0x1_0000_0000 && 1 <= stat + fill ==>
              r == (if stat + fill < MAX_STAT_VALUE then stat + fill else MAX_STAT_VALUE)
  {
    Clamp(WrappingAdd32(stat, fill))
  }

  /** Which decay formula a variant uses. */
  datatype DecayRule =
    | Clamped     // NFT variant: `calculate_current_stat_value`
    | OffsetByOne // auto and army variants: `update_stat`

  /** The current value of a stat at block `now`, by the variant's rule. */
  function Decayed(rule: DecayRule, v: Vitals, need: Need, now: u32): (r: u32)
    ensures 1 <= r <= MAX_STAT_VALUE + 1
    ensures rule.Clamped? ==> r <= MAX_STAT_VALUE
    ensures LastBlock(v, need) == now ==> r == (if rule.Clamped? then MAX_STAT_VALUE else MAX_STAT_VALUE + 1)
  {
    match rule
    case Clamped => CurrentStatValue(now, LastBlock(v, need), WastedPerBlock(need))
    case OffsetByOne => UpdateStat(now, LastBlock(v, need), WastedPerBlock(need))
  }

  /**
   `fill_stat_and_reply`: the stat becomes its decayed value plus the fill,
   clamped, and is stamped with the current block; the other two stats and
   their blocks are untouched. Returns the new vitals and the new value,
   which the program replies with.
   */
  function FillNeed(rule: DecayRule, v: Vitals, need: Need, now: u32): (r: (Vitals, u32))
    ensures 1 <= r.1 <= MAX_STAT_VALUE
    ensures r.1 == if Decayed(rule, v, need, now) + FillPerAction(need) < MAX_STAT_VALUE
                   then Decayed(rule, v, need, now) + FillPerAction(need) else MAX_STAT_VALUE
    ensures Level(r.0, need) == r.1 && LastBlock(r.0, need) == now
    ensures forall other: Need | other != need ::
              Level(r.0, other) == Level(v, other) && LastBlock(r.0, other) == LastBlock(v, other)
  {
    var level := FillStatValue(Decayed(rule, v, need, now), FillPerAction(need));
    (WithLevel(v, need, level, now), level)
  }

  /**
   `update_stats` as the auto and army variants write it: every stat is set
   to its decayed value; the blocks are kept, so decay keeps counting from
   the last care action.
   */
  function RefreshAll(rule: DecayRule, v: Vitals, now: u32): (w: Vitals)
    ensures forall need: Need ::
              Level(w, need) == Decayed(rule, v, need, now) && LastBlock(w, need) == LastBlock(v, need)
  {
    Vitals(Decayed(rule, v, Hunger, now), v.fedBlock,
           Decayed(rule, v, Boredom, now), v.entertainedBlock,
           Decayed(rule, v, Energy, now), v.sleptBlock)
  }

  /**
   The two decay rules agree up to the offset: the NFT variant's value is
   one less than the others', but never below 1.
   */
  lemma ClampedIsOffsetLessOne(now: u32, statBlock: u32, wasted: u32)
    ensures CurrentStatValue(now, statBlock, wasted) ==
              (if UpdateStat(now, statBlock, wasted) == 1 then 1 else UpdateStat(now, statBlock, wasted) - 1)
  {
  }

  /**
   Decay only goes down: as long as no wrap-around happens, a later block
   never shows a higher value, under either rule.
   */
  lemma DecayIsMonotone(statBlock: u32, now1: u32, now2: u32, wasted: u32)
    requires statBlock <= now1 <= now2
    requires (now2 - statBlock) * wasted < 0x1_0000_0000
    ensures UpdateStat(now2, statBlock, wasted) <= UpdateStat(now1, statBlock, wasted)
    ensures CurrentStatValue(now2, statBlock, wasted) <= CurrentStatValue(now1, statBlock, wasted)
  {
    assert (now1 - statBlock) * wasted <= (now2 - statBlock) * wasted by {
      MulIsMonotone(now1 - statBlock, now2 - statBlock, wasted);
    }
  }

  lemma MulIsMonotone(a: nat, b: nat, c: nat)
    requires a <= b
    ensures a * c <= b * c
  {
  }

  /**
   A stat hits the floor of 1 once enough blocks have passed: 10000 for
   hunger, 5000 for boredom and energy.
   */
  lemma DecayReachesFloor(need: Need, statBlock: u32, now: u32)
    requires statBlock <= now < 0x8000_0000
    requires now - statBlock >= MAX_STAT_VALUE / WastedPerBlock(need)
    ensures UpdateStat(now, statBlock, WastedPerBlock(need)) == 1
    ensures CurrentStatValue(now, statBlock, WastedPerBlock(need)) == 1
  {
    var elapsed := now - statBlock;
    assert elapsed * WastedPerBlock(need) >= MAX_STAT_VALUE;
  }

  /**
   A care action never lowers a stat below what decay left it at, and
   raises it by the full fill unless that would pass 10000.
   */
  lemma FillNeverLowers(rule: DecayRule, v: Vitals, need: Need, now: u32)
    ensures var level := Decayed(rule, v, need, now);
            var filled := FillNeed(rule, v, need, now).1;
            && (level <= MAX_STAT_VALUE ==> level <= filled)
            && (level + 1000 <= MAX_STAT_VALUE ==> filled == level + 1000)
  {
  }
}

=== FILE: prim.dfy ===
/**
 Machine integers, identifiers and the failure type shared by every program
 of the model.

 Rust's fixed-width unsigned integers become subset types of `int`. The
 programs are modelled as a release build, where `+`, `-` and `*` wrap around
 silently, so the wrapping operators are written out explicitly; the
 `saturating_*` methods clamp instead.
 */
module Prim {

  type u8 = x: int | 0 <= x < 0x100
  type u16 = x: int | 0 <= x < 0x1_0000
  type u32 = x: int | 0 <= x < 0x1_0000_0000
  type u64 = x: int | 0 <= x < 0x1_0000_0000_0000_0000
  type u128 = x: int | 0 <= x < 0x1_0000_0000_0000_0000_0000_0000_0000_0000

  const U16_MAX: u16 := 0xFFFF
  const U64_MAX: u64 := 0xFFFF_FFFF_FFFF_FFFF

  /** A 32-byte account or program address (`ActorId`); the default address is 0. */
  type ActorId = nat
  const DEFAULT_ACTOR: ActorId := 0

  /** The hash of an uploaded program code (`CodeId`). */
  type CodeId = nat

  /** A gas reservation handle (`ReservationId`), opaque to the programs. */
  type ReservationId = nat

  /** The 32-byte output of the host's randomness source (`exec::random`). */
  type RandomHash = s: seq<u8> | |s| == 32 witness seq(32, _ => 0)

  /** `u16::from_be_bytes([hi, lo])` */
  function BeU16(hi: u8, lo: u8): (r: u16)
    ensures r / 0x100 == hi && r % 0x100 == lo
  {
    hi * 0x100 + lo
  }

  /** `a.saturating_sub(b)` on any unsigned width: floors at zero. */
  function SaturatingSub(a: nat, b: nat): (r: nat)
    ensures r <= a
    ensures r == 0 <==> a <= b
    ensures b <= a ==> r + b == a
  {
    if b <= a then a - b else 0
  }

  /** `a.saturating_add(b)` on a width whose largest value is `max`. */
  function SaturatingAdd(a: nat, b: nat, max: nat): (r: nat)
    requires a <= max
    ensures a <= r <= max
    ensures a + b <= max ==> r == a + b
    ensures max < a + b ==> r == max
  {
    if a + b <= max then a + b else max
  }

  /**
   The id a registry issues after `n`: `n.saturating_add(1)` on a `u64`
   counter, so once the largest value is reached it is issued again.
   */
  function NextId(n: u64): (r: u64)
    ensures n < U64_MAX ==> r == n + 1
    ensures n == U64_MAX ==> r == n
  {
    SaturatingAdd(n, 1, U64_MAX)
  }

  /** Release-mode `a - b` on `u32`. */
  function WrappingSub32(a: u32, b: u32): (r: u32)
    ensures b <= a ==> r == a - b
    ensures a < b ==> r == a - b + 0x1_0000_0000
  {
    (a - b) % 0x1_0000_0000
  }

  /** Release-mode `a * b` on `u32`. */
  function WrappingMul32(a: u32, b: u32): (r: u32)
    ensures a * b < 0x1_0000_0000 ==> r == a * b
  {
    (a * b) % 0x1_0000_0000
  }

  /** Release-mode `a + b` on `u32`. */
  function WrappingAdd32(a: u32, b: u32): (r: u32)
    ensures a + b < 0x1_0000_0000 ==> r == a + b
    ensures 0x1_0000_0000 <= a + b ==> r == a + b - 0x1_0000_0000
  {
    (a + b) % 0x1_0000_0000
  }

  /** Release-mode `a - b` on `u64`. */
  function WrappingSub64(a: u64, b: u64): (r: u64)
    ensures b <= a ==> r == a - b
  {
    (a - b) % 0x1_0000_0000_0000_0000
  }

  /** Release-mode `a * b` on `u16`. */
  function WrappingMul16(a: u16, b: u16): (r: u16)
    ensures a * b < 0x1_0000 ==> r == a * b
  {
    (a * b) % 0x1_0000
  }

  /**
   The outcome of handling one message. `Panic` aborts the message: the host
   discards every change the handler made and the sender receives an error
   reply. Usable with `:-`.
   */
  datatype Result<+T> = Ok(value: T) | Panic(reason: string) {
    predicate IsFailure() {
      Panic?
    }

    function PropagateFailure<U>(): Result<U>
      requires Panic?
    {
      Panic(reason)
    }

    function Extract(): T
      requires Ok?
    {
      value
    }
  }

  /** `Option::expect`: the value, or a panic with `reason`. */
  function Expect<T>(o: Option<T>, reason: string): (r: Result<T>)
    ensures r.Ok? <==> o.Some?
    ensures o.Some? ==> r.value == o.value
  {
    match o
    case Some(v) => Ok(v)
    case None => Panic(reason)
  }

  /** `assert!`/`assert_eq!`: passes, or panics with `reason`. */
  function Require(condition: bool, reason: string): (r: Result<()>)
    ensures r.Ok? <==> condition
  {
    if condition then Ok(()) else Panic(reason)
  }

  datatype Option<+T> = None | Some(value: T) {
    function GetOr(default: T): T {
      match this
      case Some(v) => v
      case None => default
    }
  }
}

=== FILE: tamagotchi_auto.dfy ===
/**
 The entry points of `contracts/05-tamagotchi-auto`. `init` creates the pet
 for the sender; `main` runs one of the shared arms; `state` replies with the
 pet after recomputing its stats, and writes the recomputed stats back.
 */
module PetAuto {
  import opened Prim
  import opened PetStats
  import opened PetIo
  import opened PetCommon

  /** `init`: the pet named by the payload, owned by the sender, at full stats. */
  function Init(name: string, clock: Clock): (p: Pet)
    ensures p.owner == clock.source && p.name == name
    ensures forall need: Need :: Level(p.vitals, need) == MAX_STAT_VALUE
    ensures p.approvedAccount.None? && p.ftContractId.None?
  {
    InitPet(name, clock)
  }

  /**
   `main`: `Transfer` needs the owner or the approved account, `Approve` and
   `RevokeApproval` need the owner, `SetFTokenContract` needs nobody, and
   `ApproveTokens` needs a token contract to have been set.
   */
  function Handle(p: Pet, action: TmgAction, clock: Clock): (r: Result<PetStep>)
    ensures action.Transfer? ==> (r.Ok? <==> clock.source == p.owner || p.approvedAccount == Some(clock.source))
    ensures (action.Approve? || action.RevokeApproval?) ==> (r.Ok? <==> clock.source == p.owner)
    ensures action.SetFTokenContract? ==> r.Ok? && r.value.pet.ftContractId == Some(action.contract)
    ensures action.ApproveTokens? ==> (r.Ok? <==> p.ftContractId.Some?)
    ensures r.Ok? && action.Transfer? ==> r.value.pet == p.(owner := action.newOwner)
    ensures r.Ok? && action.Approve? ==> r.value.pet == p.(approvedAccount := Some(action.account))
    ensures r.Ok? && action.RevokeApproval? ==> r.value.pet == p.(approvedAccount := None)
    ensures r.Ok? && action.SetFTokenContract? ==> r.value.pet == p.(ftContractId := Some(action.contract))
    ensures (action.CheckState? || action.ReserveGas?) ==> r.Panic?
  {
    HandleCommon(p, action, clock)
  }

  /**
   `state`: the reply is the pet with every stat recomputed for the current
   block, and the stored pet becomes that same record. The blocks are kept.
   */
  function StateQuery(p: Pet, now: u32): (r: (Pet, Pet))
    ensures r.0 == r.1
    ensures r.0 == p.(vitals := r.0.vitals)
    ensures forall need: Need ::
              && Level(r.0.vitals, need) == Decayed(OffsetByOne, p.vitals, need, now)
              && LastBlock(r.0.vitals, need) == LastBlock(p.vitals, need)
  {
    var refreshed := p.(vitals := RefreshAll(OffsetByOne, p.vitals, now));
    (refreshed, refreshed)
  }

  /**
   The query is not read-only: asked in the block the pet was created in,
   it stores (and reports) 10001 for every stat, one above the value `init`
   stored and above what any care action can set.
   */
  lemma QueryRightAfterInit(name: string, clock: Clock)
    ensures var q := StateQuery(Init(name, clock), clock.blockHeight);
            forall need: Need :: Level(q.1.vitals, need) == MAX_STAT_VALUE + 1
  {
  }
}

=== FILE: tamagotchi_io.dfy ===
/**
 The messages a tamagotchi program understands and answers with, as declared
 by the army variant's io crate (`tamagotchi-utils/io`). The earlier variants
 understand a prefix of this action list: the auto variant the first eleven
 actions, the NFT variant the first five.
 */
module PetIo {
  import opened Prim

  /** An item id of the attribute store. */
  type AttributeId = u32

  /** A fungible-token transaction id. */
  type TransactionId = u64

  datatype TmgAction =
    | Name
    | Age
    | Feed
    | Entertain
    | Sleep
    | Transfer(newOwner: ActorId)
    | Approve(account: ActorId)
    | RevokeApproval
    | SetFTokenContract(contract: ActorId)
    | ApproveTokens(account: ActorId, amount: u128)
    | BuyAttribute(storeId: ActorId, attributeId: AttributeId)
    | CheckState
    | ReserveGas(reservationAmount: u64, duration: u32)

  datatype TmgEvent =
    | Name(name: string)
    | Age(age: u64)
    | Fed
    | Entertained
    | Slept
    | Transferred(newOwner: ActorId)
    | Approved(account: ActorId)
    | ApprovalRevoked
    | FTokenContractSet
    | TokensApproved(account: ActorId, amount: u128)
    | ApprovalError
    | AttributeBought(attributeId: AttributeId)
    | CompletePrevPurchase(attributeId: AttributeId)
    | ErrorDuringPurchase
    | FeedMe
    | PlayWithMe
    | WantToSleep
    | NothingToDo
    | MakeReservation
    | GasReserved

  /** The init payload the army factory sends to a tamagotchi it creates. */
  datatype TmgInit = TmgInit(owner: ActorId, name: string)

  /**
   What a tamagotchi sends back. `Name` and `Age` and the three care actions
   reply with the text of a string or a decimal number; every other action
   replies with an encoded `TmgEvent`.
   */
  datatype PetReply = Text(text: string) | Decimal(n: nat) | Event(event: TmgEvent)
}

=== FILE: tamagotchi_nft.dfy ===
/**
 The tamagotchi of `contracts/03-tamagotchi-nft`: a name, a birth date, an
 owner and the three stats, starting at 9999. It answers `Name`, `Age` and
 the three care actions; its stats decay by the clamped rule (a fresh stat
 reads 10000).

 Its `state` entry point refreshes the stats through `update_stats`, which
 subtracts the recomputed value from the stored one (`-=`) where the later
 variants assign it. `UpdateStatsAsWritten` models that code, and
 `NftUnderflowRightAfterInit` shows it wrapping to 4294967295 the moment
 the pet is created; the query is modelled with the assignment,
 `UpdateStats`.
 */
module PetNft {
  import opened Prim
  import opened PetStats
  import opened PetIo
  import opened PetCommon

  /** The value `init` gives every stat. */
  const INITIAL_STAT: u32 := 9999

  datatype NftPet = NftPet(name: string, dateOfBirth: u64, owner: ActorId, vitals: Vitals)

  datatype NftStep = NftStep(pet: NftPet, reply: PetReply)

  /** `init`: 9999 in every stat, stamped with the current block, owned by the sender. */
  function Init(name: string, clock: Clock): (p: NftPet)
    ensures p.name == name && p.owner == clock.source && p.dateOfBirth == clock.blockTimestamp
    ensures forall need: Need ::
              Level(p.vitals, need) == INITIAL_STAT && LastBlock(p.vitals, need) == clock.blockHeight
  {
    NftPet(name, clock.blockTimestamp, clock.source, Uniform(INITIAL_STAT, clock.blockHeight))
  }

  /**
   `handle`: `Name` and `Age` change nothing; each care action refills its
   own stat by the clamped rule and stamps its block, and leaves the other
   two stats alone. The program's action type has only these five variants,
   so any other action fails to decode.
   */
  function Handle(p: NftPet, action: TmgAction, clock: Clock): (r: Result<NftStep>)
    ensures r.Ok? <==> action.Name? || action.Age? || action.Feed? || action.Entertain? || action.Sleep?
    ensures action.Name? ==> r == Ok(NftStep(p, Text(p.name)))
    ensures action.Age? ==> r == Ok(NftStep(p, Decimal(WrappingSub64(clock.blockTimestamp, p.dateOfBirth))))
    ensures r.Ok? && (action.Feed? || action.Entertain? || action.Sleep?) ==>
      var need := CaredNeed(action);
      && r.value.pet == p.(vitals := r.value.pet.vitals)
      && r.value.reply.Decimal? && 1 <= r.value.reply.n <= MAX_STAT_VALUE
      && Level(r.value.pet.vitals, need) == r.value.reply.n
      && r.value.reply.n == FillNeed(Clamped, p.vitals, need, clock.blockHeight).1
      && LastBlock(r.value.pet.vitals, need) == clock.blockHeight
      && forall other: Need | other != need ::
           Level(r.value.pet.vitals, other) == Level(p.vitals, other)
           && LastBlock(r.value.pet.vitals, other) == LastBlock(p.vitals, other)
  {
    match action
    case Name => Ok(NftStep(p, Text(p.name)))
    case Age => Ok(NftStep(p, Decimal(WrappingSub64(clock.blockTimestamp, p.dateOfBirth))))
    case Feed => Ok(CareNft(p, Hunger, clock.blockHeight))
    case Entertain => Ok(CareNft(p, Boredom, clock.blockHeight))
    case Sleep => Ok(CareNft(p, Energy, clock.blockHeight))
    case _ => Panic("Error loading TmgAction")
  }

  /** `fill_stat_and_reply` by the clamped rule. */
  function CareNft(p: NftPet, need: Need, now: u32): (r: NftStep)
    ensures r.pet == p.(vitals := FillNeed(Clamped, p.vitals, need, now).0)
    ensures r.reply == Decimal(FillNeed(Clamped, p.vitals, need, now).1)
  {
    var (vitals, level) := FillNeed(Clamped, p.vitals, need, now);
    NftStep(p.(vitals := vitals), Decimal(level))
  }

  /**
   `update_stats` as written: each stored stat has the recomputed value
   subtracted from it, in release-mode `u32` arithmetic. The blocks are kept.
   */
  function UpdateStatsAsWritten(v: Vitals, now: u32): (w: Vitals)
    ensures forall need: Need ::
              var stored := Level(v, need);
              var current := Decayed(Clamped, v, need, now);
              && LastBlock(w, need) == LastBlock(v, need)
              && (current <= stored ==> Level(w, need) == stored - current)
              && (stored < current ==> Level(w, need) == stored - current + 0x1_0000_0000)
  {
    Vitals(WrappingSub32(v.fed, Clamp(Decayed(Clamped, v, Hunger, now))), v.fedBlock,
           WrappingSub32(v.entertained, Clamp(Decayed(Clamped, v, Boredom, now))), v.entertainedBlock,
           WrappingSub32(v.slept, Clamp(Decayed(Clamped, v, Energy, now))), v.sleptBlock)
  }

  /**
   `update_stats` as intended: each stat becomes its recomputed value,
   which is in `1..=10000`. The blocks are kept.
   */
  function UpdateStats(v: Vitals, now: u32): (w: Vitals)
    ensures forall need: Need ::
              && Level(w, need) == Decayed(Clamped, v, need, now)
              && 1 <= Level(w, need) <= MAX_STAT_VALUE
              && LastBlock(w, need) == LastBlock(v, need)
  {
    RefreshAll(Clamped, v, now)
  }

  /** `state`: replies with the pet after refreshing its stats, and stores the refreshed pet. */
  function StateQuery(p: NftPet, now: u32): (r: (NftPet, NftPet))
    ensures r.0 == r.1 && r.0 == p.(vitals := UpdateStats(p.vitals, now))
  {
    var refreshed := p.(vitals := UpdateStats(p.vitals, now));
    (refreshed, refreshed)
  }

  /**
   The subtraction underflows at once: queried in the block it was created
   in, the pet stores 9999 - 10000, which wraps to 4294967295 (a debug build
   panics instead). With the assignment the query reports 10000.
   */
  lemma NftUnderflowRightAfterInit(name: string, clock: Clock)
    ensures var p := Init(name, clock);
            forall need: Need ::
              && Level(UpdateStatsAsWritten(p.vitals, clock.blockHeight), need) == 0xFFFF_FFFF
              && Level(UpdateStats(p.vitals, clock.blockHeight), need) == MAX_STAT_VALUE
  {
  }

  /**
   With the assignment, the stats stay in `1..=10000` whatever the messages
   and queries: `init` is in range, and every care action and every query
   keeps them in range.
   */
  lemma StatsStayBounded(p: NftPet, action: TmgAction, clock: Clock, now: u32)
    requires forall need: Need :: 1 <= Level(p.vitals, need) <= MAX_STAT_VALUE
    ensures forall need: Need :: 1 <= Level(Init(p.name, clock).vitals, need) <= MAX_STAT_VALUE
    ensures var r := Handle(p, action, clock);
            r.Ok? ==> forall need: Need :: 1 <= Level(r.value.pet.vitals, need) <= MAX_STAT_VALUE
    ensures forall need: Need :: 1 <= Level(StateQuery(p, now).1.vitals, need) <= MAX_STAT_VALUE
  {
    var r := Handle(p, action, clock);
    if r.Ok? && (action.Feed? || action.Entertain? || action.Sleep?) {
      var need := CaredNeed(action);
      forall other: Need ensures 1 <= Level(r.value.pet.vitals, other) <= MAX_STAT_VALUE {
        if other != need {
          assert Level(r.value.pet.vitals, other) == Level(p.vitals, other);
        }
      }
    }
  }

  /**
   As written, one query takes a stat out of `1..=10000` exactly when the
   stored value is not above its recomputed value: equal values leave 0,
   and a smaller stored value wraps past 4294967295 - 10000. A stat stored
   above its recomputed value stays in range (as the difference).
   */
  lemma NftUnderflowWhenStoredNotAbove(v: Vitals, now: u32, need: Need)
    requires 1 <= Level(v, need) <= MAX_STAT_VALUE
    ensures Level(v, need) == Decayed(Clamped, v, need, now) ==> Level(UpdateStatsAsWritten(v, now), need) == 0
    ensures Level(v, need) < Decayed(Clamped, v, need, now) ==>
              Level(UpdateStatsAsWritten(v, now), need) > 0xFFFF_FFFF - MAX_STAT_VALUE
    ensures Level(v, need) > Decayed(Clamped, v, need, now) ==>
              1 <= Level(UpdateStatsAsWritten(v, now), need) < MAX_STAT_VALUE
    ensures (1 <= Level(UpdateStatsAsWritten(v, now), need) <= MAX_STAT_VALUE) <==>
              Level(v, need) > Decayed(Clamped, v, need, now)
  {
  }
}

=== FILE: tamagotchi_utils.dfy ===
/**
 The tamagotchi of the army variant (`contracts/06-tamagotchi-army/tamagotchi-utils`).
 Besides the shared arms it keeps a stack of gas reservations and two flags,
 and runs a self-sustaining check loop: once three reservations are held,
 it sends itself a delayed `CheckState` paid from one of them; each
 `CheckState` from itself spends one more reservation on the next delayed
 check, and the one spending the last reservation instead tells the owner to
 make new reservations and clears both flags.

 The reservation the host grants (or refuses) is a parameter, and so is the
 program's own address.
 */
module PetArmy {
  import opened Prim
  import opened PetStats
  import opened PetIo
  import opened PetCommon

  const HUNGER_THRESHOLD: u32 := 2000
  const BOREDOM_THRESHOLD: u32 := 2000
  const ENERGY_THRESHOLD: u32 := 2000

  const DELAY_OF_ONE_MINUTE: u32 := 20

  /** The two flags of the check loop. */
  datatype GasHandler = GasHandler(sentDelayed: bool, canSendDelayed: bool)

  /** The stored program state: the pet, its reservation stack and the loop flags. */
  datatype State = State(pet: Pet, reservations: seq<ReservationId>, handler: GasHandler)

  /** The values the host supplies to one message. */
  datatype Host = Host(clock: Clock, programId: ActorId, reserved: Option<ReservationId>)

  /** A handled message; a `CheckState` from the program itself sends no reply. */
  datatype Step = Step(state: State, reply: Option<PetReply>, effects: seq<Effect>)

  /** `init`: the shared initial pet, no reservations, both flags down. */
  function Init(name: string, clock: Clock): (s: State)
    ensures s.pet == InitPet(name, clock)
    ensures s.reservations == [] && !s.handler.sentDelayed && !s.handler.canSendDelayed
  {
    State(InitPet(name, clock), [], GasHandler(false, false))
  }

  /** The `CheckState` verdict: the first need at or below its threshold, in the order food, play, sleep. */
  function Classify(v: Vitals): (e: TmgEvent)
    ensures e.FeedMe? <==> v.fed <= HUNGER_THRESHOLD
    ensures e.PlayWithMe? <==> v.fed > HUNGER_THRESHOLD && v.entertained <= BOREDOM_THRESHOLD
    ensures e.WantToSleep? <==>
      v.fed > HUNGER_THRESHOLD && v.entertained > BOREDOM_THRESHOLD && v.slept <= ENERGY_THRESHOLD
    ensures e.NothingToDo? <==>
      v.fed > HUNGER_THRESHOLD && v.entertained > BOREDOM_THRESHOLD && v.slept > ENERGY_THRESHOLD
  {
    if v.fed <= HUNGER_THRESHOLD then FeedMe
    else if v.entertained <= BOREDOM_THRESHOLD then PlayWithMe
    else if v.slept <= ENERGY_THRESHOLD then WantToSleep
    else NothingToDo
  }

  /** The pet with every stat recomputed for block `now`, as `update_stats` leaves it. */
  function Refreshed(p: Pet, now: u32): (q: Pet)
    ensures q == p.(vitals := q.vitals)
    ensures forall need: Need :: Level(q.vitals, need) == Decayed(OffsetByOne, p.vitals, need, now)
    ensures forall need: Need :: LastBlock(q.vitals, need) == LastBlock(p.vitals, need)
  {
    p.(vitals := RefreshAll(OffsetByOne, p.vitals, now))
  }

  /**
   The `CheckState` arm. The recomputed stats are stored in every case.
   From anyone but the program itself it only replies with the verdict.
   From the program itself it pops the newest reservation and spends it on a
   delayed message: to the owner (`MakeReservation`, both flags cleared) when
   it was the last one, to itself (`CheckState`) otherwise. With no
   reservation left it panics.
   */
  function CheckStateOf(s: State, host: Host): (r: Result<Step>)
    ensures r.Panic? <==> host.programId == host.clock.source && |s.reservations| == 0
    ensures r.Ok? ==> r.value.state.pet == Refreshed(s.pet, host.clock.blockHeight)
    ensures host.programId != host.clock.source ==>
      && r.Ok? && r.value.effects == []
      && r.value.reply == Some(Event(Classify(r.value.state.pet.vitals)))
      && r.value.state.reservations == s.reservations && r.value.state.handler == s.handler
    ensures host.programId == host.clock.source && r.Ok? ==>
      var n := |s.reservations|;
      && r.value.reply == None
      && r.value.state.reservations == s.reservations[..n - 1]
      && |r.value.effects| == 1 && r.value.effects[0].DelayedFromReservation?
      && r.value.effects[0].reservation == s.reservations[n - 1]
      && r.value.effects[0].delay == DELAY_OF_ONE_MINUTE
      && (n == 1 ==>
            && r.value.effects[0].dest == s.pet.owner
            && r.value.effects[0].payload == Notice(MakeReservation)
            && r.value.state.handler == GasHandler(false, false))
      && (n >= 2 ==>
            && r.value.effects[0].dest == host.programId
            && r.value.effects[0].payload == Command(CheckState)
            && r.value.state.handler == s.handler)
  {
    var pet := Refreshed(s.pet, host.clock.blockHeight);
    var verdict := Classify(pet.vitals);
    if host.programId != host.clock.source then
      Ok(Step(s.(pet := pet), Some(Event(verdict)), []))
    else if |s.reservations| == 0 then
      Panic("Error getting reservation id")
    else
      var n := |s.reservations|;
      var last := s.reservations[n - 1];
      if n == 1 then
        Ok(Step(State(pet, [], GasHandler(false, false)), None,
                [DelayedFromReservation(last, pet.owner, Notice(MakeReservation), DELAY_OF_ONE_MINUTE)]))
      else
        Ok(Step(State(pet, s.reservations[..n - 1], s.handler), None,
                [DelayedFromReservation(last, host.programId, Command(CheckState), DELAY_OF_ONE_MINUTE)]))
  }

  /**
   The `ReserveGas` arm: pushes the granted reservation (panics when the
   host refuses one); from the third reservation on the loop may start, and
   the first time it may while it has not, the reservation just pushed is
   popped again and spent on a delayed `CheckState` to the program itself.
   */
  function ReserveGasOf(s: State, host: Host): (r: Result<Step>)
    ensures r.Ok? <==> host.reserved.Some?
    ensures r.Ok? ==>
      && r.value.reply == Some(Event(GasReserved)) && r.value.state.pet == s.pet
      && var starts := !s.handler.sentDelayed && (s.handler.canSendDelayed || |s.reservations| + 1 >= 3);
      && (starts ==>
            && r.value.state.reservations == s.reservations
            && r.value.state.handler == GasHandler(true, true)
            && r.value.effects ==
                 [DelayedFromReservation(host.reserved.value, host.programId, Command(CheckState), DELAY_OF_ONE_MINUTE)])
      && (!starts ==>
            && r.value.state.reservations == s.reservations + [host.reserved.value]
            && r.value.state.handler.sentDelayed == s.handler.sentDelayed
            && r.value.state.handler.canSendDelayed == (s.handler.canSendDelayed || |s.reservations| + 1 >= 3)
            && r.value.effects == [])
  {
    var id :- Expect(host.reserved, "Error in reserving gas");
    var reservations := s.reservations + [id];
    var canSend := s.handler.canSendDelayed || |reservations| >= 3;
    if canSend && !s.handler.sentDelayed then
      var n := |reservations|;
      assert reservations[..n - 1] == s.reservations;
      Ok(Step(State(s.pet, reservations[..n - 1], GasHandler(true, canSend)), Some(Event(GasReserved)),
              [DelayedFromReservation(reservations[n - 1], host.programId, Command(CheckState), DELAY_OF_ONE_MINUTE)]))
    else
      Ok(Step(State(s.pet, reservations, GasHandler(s.handler.sentDelayed, canSend)), Some(Event(GasReserved)), []))
  }

  /** `main`: the two loop arms here, every other action by the shared arms on the pet. */
  function Handle(s: State, action: TmgAction, host: Host): (r: Result<Step>)
    ensures action.CheckState? ==> r == CheckStateOf(s, host)
    ensures action.ReserveGas? ==> r == ReserveGasOf(s, host)
    ensures !action.CheckState? && !action.ReserveGas? ==>
      && (r.Ok? <==> HandleCommon(s.pet, action, host.clock).Ok?)
      && (r.Ok? ==>
            var c := HandleCommon(s.pet, action, host.clock).value;
            r.value == Step(s.(pet := c.pet), Some(c.reply), c.effects))
  {
    match action
    case CheckState => CheckStateOf(s, host)
    case ReserveGas(_, _) => ReserveGasOf(s, host)
    case _ =>
      match HandleCommon(s.pet, action, host.clock)
      case Panic(reason) => Panic(reason)
      case Ok(c) => Ok(Step(s.(pet := c.pet), Some(c.reply), c.effects))
  }

  /** `state`: replies with the recomputed pet and stores it; reservations and flags are untouched. */
  function StateQuery(s: State, now: u32): (r: (State, State))
    ensures r.0 == r.1 && r.0 == s.(pet := Refreshed(s.pet, now))
  {
    var refreshed := s.(pet := Refreshed(s.pet, now));
    (refreshed, refreshed)
  }

  // ---------------------------------------------------------------------------
  // The check loop

  /**
   The loop's bookkeeping: the two flags rise and fall together, and while
   the loop is idle fewer than three reservations are held.
   */
  predicate LoopConsistent(s: State) {
    && s.handler.sentDelayed == s.handler.canSendDelayed
    && (!s.handler.canSendDelayed ==> |s.reservations| <= 2)
  }

  /** `init` is consistent, and every message keeps the loop consistent. */
  lemma HandleKeepsLoopConsistent(s: State, action: TmgAction, host: Host, name: string)
    requires LoopConsistent(s)
    ensures LoopConsistent(Init(name, host.clock))
    ensures var r := Handle(s, action, host); r.Ok? ==> LoopConsistent(r.value.state)
  {
  }

  /**
   Starting the loop: from a fresh program, the first two reservations are
   kept, and the third is spent at once on a delayed self-`CheckState`.
   */
  lemma ThirdReservationStartsLoop(name: string, host: Host, a: ReservationId, b: ReservationId, c: ReservationId)
    ensures
      var s0 := Init(name, host.clock);
      var r1 := Handle(s0, ReserveGas(0, 0), host.(reserved := Some(a)));
      && r1.Ok? && r1.value.effects == [] && r1.value.state.reservations == [a]
      && var r2 := Handle(r1.value.state, ReserveGas(0, 0), host.(reserved := Some(b)));
      && r2.Ok? && r2.value.effects == [] && r2.value.state.reservations == [a, b]
      && !r2.value.state.handler.canSendDelayed
      && var r3 := Handle(r2.value.state, ReserveGas(0, 0), host.(reserved := Some(c)));
      && r3.Ok? && r3.value.state.reservations == [a, b]
      && r3.value.state.handler == GasHandler(true, true)
      && r3.value.effects == [DelayedFromReservation(c, host.programId, Command(CheckState), DELAY_OF_ONE_MINUTE)]
  {
  }

  /** Once the loop runs, further reservations only pile up: nothing else is sent. */
  lemma RunningLoopOnlyStores(s: State, host: Host)
    requires s.handler == GasHandler(true, true) && host.reserved.Some?
    ensures var r := Handle(s, ReserveGas(0, 0), host);
            && r.Ok? && r.value.effects == []
            && r.value.state.reservations == s.reservations + [host.reserved.value]
  {
  }

  /** A host that delivers the program's own delayed `CheckState` at block `now`. */
  function SelfHost(programId: ActorId, now: u32, timestamp: u64): (h: Host)
    ensures h.clock.source == h.programId == programId && h.clock.blockHeight == now
  {
    Host(Clock(programId, now, timestamp), programId, None)
  }

  /**
   The loop run to its end: the program's own `CheckState` messages delivered
   one after another (all at block `now`) until one of them reports to the
   owner. Returns the final state and every message sent on the way.
   */
  function RunLoop(s: State, programId: ActorId, now: u32, timestamp: u64): (r: Result<(State, seq<Effect>)>)
    ensures r.Ok? <==> |s.reservations| >= 1
    ensures r.Ok? ==>
      var n := |s.reservations|;
      var (last, sent) := r.value;
      && last.reservations == [] && last.handler == GasHandler(false, false)
      && last.pet.owner == s.pet.owner
      && |sent| == n
      && (forall i | 0 <= i < n ::
            && sent[i].DelayedFromReservation?
            && sent[i].reservation == s.reservations[n - 1 - i]
            && sent[i].delay == DELAY_OF_ONE_MINUTE)
      && (forall i | 0 <= i < n - 1 :: sent[i].dest == programId && sent[i].payload == Command(CheckState))
      && sent[n - 1].dest == s.pet.owner && sent[n - 1].payload == Notice(MakeReservation)
    decreases |s.reservations|
  {
    var step :- CheckStateOf(s, SelfHost(programId, now, timestamp));
    if |s.reservations| == 1 then Ok((step.state, step.effects))
    else
      match RunLoop(step.state, programId, now, timestamp)
      case Panic(reason) => Panic(reason)
      case Ok(rest) => Ok((rest.0, step.effects + rest.1))
  }
}
